=== FILE: README.md ===
# ngrams-api in Dafny

A model of the three classes at the heart of DigitalPebble's ngrams-api. The
library indexes a corpus in the Google Web 1T n-gram layout into Lucene and then
answers phrase-frequency queries against that index.

- **IndexCreator** (`indexing.dfy`, module `Indexing`) walks the corpus root in
  String order and handles two kinds of entry:
  - `1gms`: the first line of `1gms/total` becomes the totals record, then
    `1gms/vocab` is read with length label `"1"`;
  - an entry matching `.gms`: its files, sorted and with the `.idx` files dropped,
    are read with the entry's first character as length label.

  Every line `form<TAB>count` becomes a record with four fields: `text`,
  `lowercase`, `length` and `value`. The IndexWriter is a class holding the
  append-only sequence of documents. The file system is an input value (`Corpus`).
  The functions `LinesScan`, `FileScan`, `BucketScan`, `DirScan`, `DirsScan` and
  `CorpusScan` say which documents each level appends and how it ends:
  - normally;
  - with an IOException, caught per bucket and for the totals file;
  - with an unchecked exception that aborts the whole build.

  The methods of `IndexCreator` do the work with the source's loops. Each one is
  proved to append exactly those documents.
- **NGramCorpus** (`querying.dfy`, module `Querying`) turns a query string into
  tokens. The tokenizer splits at `\s`, trims each piece and keeps the non-empty
  ones. The tokens become a zero-slop phrase on `text`, or lower-cased on
  `lowercase`. That phrase is required together with the term `length` = number of
  tokens, and the hits are driven through a fresh collector. The object fixes the
  total number of tokens when it is opened, from the totals record.
- **NGramCollector** (`collecting.dfy`, module `Collecting`) is a class with
  `totalOccurrences`, `ngramForms` and `collectNgrams`. `Collect` parses the count
  of a hit, records the hit's text when collecting forms, and adds the count to the
  total. The getters `GetMap`, `GetTotalOccurrences` and `IsCollectNgrams` are
  functions that read the object, so calling them changes nothing.

Supporting modules:
- `Documents` holds the Lucene documents and queries. Its `Matches` predicate
  states when Lucene reports a document as a hit. **`Matches` is an assumption about
  Lucene 3, written out; it is not verified Lucene.**
- `JavaStrings` models `split`, `trim`, `indexOf`, `endsWith` and ASCII
  `toLowerCase`, plus the WhitespaceAnalyzer's split of an indexed field.
- `Decimal` models `Integer.toString` and `Long.parseLong`.
- `StringOrder` models `String.compareTo` and the sort of a directory listing.
- `Wrappers` holds `Option` and `Result`.

How the code handles unusual input, as the model states it:
- **A line without a tab.** `indexOf` gives -1 and `substring(0, -1)` throws. The
  unchecked exception is not caught anywhere, so it aborts the whole build
  (`TablessLineStopsFile`, `CreateIndex`).
- **A count that is not a number.** The build stores the count verbatim in `value`
  without parsing it. Only a query that hits that record fails, when
  `Long.parseLong` throws (`NumberFormat`).
- **An unreadable file.** The IOException leaves `createIndexFileForlengthN`, so the
  remaining files of that bucket are skipped. `scanCorpus` catches it and goes on
  with the next directory (`IOFailureStopsBucket`, `DirScan`).
- **A missing `1gms/total`.** `scanCorpus` catches the IOException and still
  indexes the vocabulary. The total number of tokens of such an index is 0
  (`MissingTotalsGivesZero`). An existing but empty `total` file aborts the build:
  `readLine` gives null and the `value` field cannot be null (`TotalsScan`).
- **An index already in the directory.** The IndexWriter opens it and appends, so
  building the same corpus twice into one directory stores every record twice and
  every query then answers twice the count (`CreateIndex`,
  `RebuiltIndexDoublesOccurrences`).
- **A blank query.** The code builds a phrase without terms and length `"0"`. The
  model returns the error `EmptyPhrase` instead of guessing Lucene's answer.

## Model

| member | source | states |
|---|---|---|
| Indexing.ParseLine | src/main/java/com/digitalpebble/ngrams/IndexCreator.java:148-164 | a line gives a record exactly when it has a tab; the record is an n-gram record whose `lowercase` is the lower-cased `text` and whose `length` is the bucket label |
| Indexing.ParseLineInverse | src/main/java/com/digitalpebble/ngrams/IndexCreator.java:149-151 | `text` is the part before the first tab and `value` everything after it (later tabs included): `text + TAB + value` is the line and `text` has no tab |
| Indexing.ParseFormattedLine | src/main/java/com/digitalpebble/ngrams/IndexCreator.java:149-160 | formatting a tab-free form and any count as a line and reading it back gives the record with that form and that count, the count kept verbatim and never parsed |
| Indexing.LinesScan | src/main/java/com/digitalpebble/ngrams/IndexCreator.java:148-166 | reading the lines of a file never ends in an IOException, appends at most one record per line, and completes exactly when every line has a tab |
| Indexing.FileScan | src/main/java/com/digitalpebble/ngrams/IndexCreator.java:141-168 | a file completes exactly when it can be read to the end and every line has a tab; it ends with an IOException only on a read error; at most one record per line |
| Indexing.BucketScan | src/main/java/com/digitalpebble/ngrams/IndexCreator.java:130-139 | a bucket completes exactly when every one of its files completes |
| Indexing.TotalsScan | src/main/java/com/digitalpebble/ngrams/IndexCreator.java:111-127 | with a first line, exactly one record: the totals record labelled with the size, holding that line; an unreadable empty file is an IOException and an empty one aborts, both with no record |
| Indexing.WellFormedLinesAllIndexed | src/main/java/com/digitalpebble/ngrams/IndexCreator.java:148-166 | when every line has a tab, the file completes with exactly one record per line, in line order, record i being the parse of line i |
| Indexing.TablessLineStopsFile | src/main/java/com/digitalpebble/ngrams/IndexCreator.java:149-150 | the first line without a tab ends the file with an unchecked exception, after the records of the lines before it |
| Indexing.LinesScanRecords | src/main/java/com/digitalpebble/ngrams/IndexCreator.java:150-164 | every record read from a file is an n-gram record whose text has no tab, whose lowercase field is the lower-cased text and whose length is the bucket label |
| Indexing.BucketScanAppend | src/main/java/com/digitalpebble/ngrams/IndexCreator.java:130-139 | a bucket reads its second list of files only when the first list completes, appending their records after the first list's |
| Indexing.IOFailureStopsBucket | src/main/java/com/digitalpebble/ngrams/IndexCreator.java:135-138 | an IOException on file k keeps what was read from files 0..k, skips every later file of the bucket and ends the bucket with that IOException |
| Indexing.BucketScanRecords | src/main/java/com/digitalpebble/ngrams/IndexCreator.java:130-139 | every record of a bucket carries that bucket's length label |
| Indexing.DataFiles | src/main/java/com/digitalpebble/ngrams/IndexCreator.java:95-101 | the selected paths are no more than the names, all in the entry's directory, none ending in `.idx` |
| Indexing.DataFilesMembers | src/main/java/com/digitalpebble/ngrams/IndexCreator.java:96-100 | a file of the listing is selected exactly when its name does not end in `.idx` |
| Indexing.DataFilesSorted | src/main/java/com/digitalpebble/ngrams/IndexCreator.java:93-101 | the files of a sorted listing are read in ascending String order |
| Indexing.DirScan | src/main/java/com/digitalpebble/ngrams/IndexCreator.java:66-107 | an IOException never escapes a root entry. `1gms` completes exactly when neither `total` nor `vocab` crashes, so an IOException on either lets the scan go on. A `.gms` entry with a listing appends exactly its bucket's records, and completes exactly when the bucket does not crash, an IOException included. A `.gms` entry without a listing crashes. Any other entry appends nothing and completes |
| Indexing.DirScanDocs | src/main/java/com/digitalpebble/ngrams/IndexCreator.java:68-107 | every document of an entry comes from `1gms` or a `.gms` entry: either the totals record labelled `"1"` of `1gms`, or a record labelled with the entry's first character |
| Indexing.BucketScanIncludes | src/main/java/com/digitalpebble/ngrams/IndexCreator.java:135-138 | in a completed bucket every file completes and all its records are in the bucket's records |
| Indexing.BucketScanIOFailure | src/main/java/com/digitalpebble/ngrams/IndexCreator.java:135-138 | a bucket ends with an IOException only when one of its files cannot be read |
| Indexing.DirsScanIncludes | src/main/java/com/digitalpebble/ngrams/IndexCreator.java:66-108 | in a completed loop over entries every entry completes and all its documents are in the result |
| Indexing.CorpusScanIncludes | src/main/java/com/digitalpebble/ngrams/IndexCreator.java:60-108 | in a completed build every entry of the root completes and all its documents are in the index |
| Indexing.FileLineIndexed | src/main/java/com/digitalpebble/ngrams/IndexCreator.java:135-166 | every line of a file of a completed bucket has a tab, and its parse is among the bucket's records |
| Indexing.NGramLineIndexed | src/main/java/com/digitalpebble/ngrams/IndexCreator.java:88-106 | when the build completes and every data file of a `.gms` directory can be read, each line of each of its non-`.idx` files is indexed, parsed with the directory's label |
| Indexing.VocabLineIndexed | src/main/java/com/digitalpebble/ngrams/IndexCreator.java:78-84 | when the build completes and `1gms/vocab` can be read, each of its lines is indexed, labelled `"1"` |
| Indexing.OneGramEntry | src/main/java/com/digitalpebble/ngrams/IndexCreator.java:68-87 | for `1gms` the totals record (the first line of `total`) comes first, then the records of `vocab` labelled `"1"`; an unreadable `total` still lets `vocab` be read; an empty `total` aborts the build |
| Indexing.NGramDirNameShape | src/main/java/com/digitalpebble/ngrams/IndexCreator.java:88 | a name matches `.gms` exactly when it is one character other than a line terminator followed by `gms`; so `1gms` matches, `10gms` and the empty name do not |
| Indexing.DirsScan | src/main/java/com/digitalpebble/ngrams/IndexCreator.java:66-108 | the loop over the root entries never ends in an IOException, and completes exactly when every entry does |
| Indexing.CorpusScan | src/main/java/com/digitalpebble/ngrams/IndexCreator.java:60-64 | the scan of the sorted root listing never ends in an IOException and completes exactly when every entry of the root completes |
| Indexing.DirsScanDocs | src/main/java/com/digitalpebble/ngrams/IndexCreator.java:66-108 | every document of a sequence of entries comes from one of those entries, and that entry is accepted |
| Indexing.CorpusScanDocs | src/main/java/com/digitalpebble/ngrams/IndexCreator.java:60-109 | every document of the index comes from `1gms` or a `.gms` entry of the root listing, labelled with that entry's first character |
| Indexing.AcceptedEntries | src/main/java/com/digitalpebble/ngrams/IndexCreator.java:68-88 | the kept entries are exactly the listed names that match `.gms` (`1gms` among them) |
| Indexing.DirsScanIgnoresOtherEntries | src/main/java/com/digitalpebble/ngrams/IndexCreator.java:66-108 | scanning a listing is the same as scanning only its `.gms` entries: every other entry is ignored |
| Indexing.CorpusScanIgnoresListingOrder | src/main/java/com/digitalpebble/ngrams/IndexCreator.java:63-64 | because listings are sorted, the index does not depend on the order in which `File.list` returns the names, neither for the root nor for any directory |
| Indexing.SelectSourceFiles | src/main/java/com/digitalpebble/ngrams/IndexCreator.java:95-101 | the filtering loop builds exactly the selected data files of the directory |
| Indexing.IndexWriter.AddDocument | src/main/java/com/digitalpebble/ngrams/IndexCreator.java:126 | the document is appended to the index, nothing else changes |
| Indexing.IndexCreator.ScanCorpus | src/main/java/com/digitalpebble/ngrams/IndexCreator.java:60-109 | the loop over the sorted root listing appends exactly the documents of `CorpusScan` and ends as it does |
| Indexing.IndexCreator.ScanEntry | src/main/java/com/digitalpebble/ngrams/IndexCreator.java:67-107 | one root entry appends exactly the documents of `DirScan`; a missing listing of a `.gms` entry aborts the build |
| Indexing.IndexCreator.WriteTokenTotalFile | src/main/java/com/digitalpebble/ngrams/IndexCreator.java:111-127 | appends the totals record `("1", first line)`, or ends with an IOException when `total` cannot be read, or aborts when `total` is empty |
| Indexing.IndexCreator.CreateIndexFileForLengthN | src/main/java/com/digitalpebble/ngrams/IndexCreator.java:130-139 | reads the files in order and appends exactly the documents of `BucketScan`, stopping at the first file that does not complete |
| Indexing.IndexCreator.ReadSourceFile | src/main/java/com/digitalpebble/ngrams/IndexCreator.java:141-168 | appends one record per line, in order, up to a read error or a tab-less line, exactly as `FileScan` says |
| Indexing.IndexWriter.constructor | src/main/java/com/digitalpebble/ngrams/IndexCreator.java:48-49 | the writer opens the index already in the directory and starts from its documents (none when there is no index yet) |
| Indexing.CreateIndex | src/main/java/com/digitalpebble/ngrams/IndexCreator.java:43-58 | the writer appends to the index already in the directory: when the scan completes the index is the existing documents followed by the scan's documents, and there is no index when it aborts |
| Documents.Get | src/main/java/com/digitalpebble/ngrams/IndexCreator.java:153-160 | `value` is stored on every document; `text` is stored on every n-gram record and absent from the totals record; `lowercase`, `length` and `totalTokenNums` are never stored |
| Documents.Hits | src/main/java/com/digitalpebble/ngrams/NGramCorpus.java:122 | a search reports at most as many hits as the index has documents |
| Documents.HitsMembers | src/main/java/com/digitalpebble/ngrams/NGramCorpus.java:122 | a search reports exactly the documents of the index that match the query |
| Documents.HitsAppend | src/main/java/com/digitalpebble/ngrams/NGramCorpus.java:122 | the hits of a concatenated index are the hits of each part, in order |
| Documents.HitsOfSingleMatch | src/main/java/com/digitalpebble/ngrams/NGramCorpus.java:122 | when exactly one document matches, the search reports exactly that document |
| Documents.MatchesBoth | src/main/java/com/digitalpebble/ngrams/NGramCorpus.java:112-114 | a conjunction of two required clauses matches exactly when both clauses do |
| Collecting.NGramCollector.constructor | src/main/java/com/digitalpebble/ngrams/NGramCollector.java:36-40 | a fresh collector has an empty map, total 0 and form collection off |
| Collecting.CollectStep | src/main/java/com/digitalpebble/ngrams/NGramCollector.java:46-54 | one hit succeeds exactly when its count parses; then the total grows by the count, the text becomes a key mapped to the count when forms are collected (the keys are unchanged otherwise), and every other key keeps its count; with form collection off the map is unchanged |
| Collecting.NGramCollector.Collect | src/main/java/com/digitalpebble/ngrams/NGramCollector.java:46-54 | a count that does not parse fails and changes nothing; otherwise the count is added to the total, and the text is mapped to the count when form collection is on, while the map is untouched when it is off |
| Collecting.NGramCollector.Clear | src/main/java/com/digitalpebble/ngrams/NGramCollector.java:72-75 | total 0, map empty, the form-collection switch kept |
| Collecting.NGramCollector.GetMap | src/main/java/com/digitalpebble/ngrams/NGramCollector.java:64-66 | the map of collected forms of the current state |
| Collecting.NGramCollector.GetTotalOccurrences | src/main/java/com/digitalpebble/ngrams/NGramCollector.java:68-70 | the running total of the current state |
| Collecting.NGramCollector.IsCollectNgrams | src/main/java/com/digitalpebble/ngrams/NGramCollector.java:77-79 | the form-collection switch |
| Collecting.NGramCollector.SetCollectNgrams | src/main/java/com/digitalpebble/ngrams/NGramCollector.java:77-83 | `IsCollectNgrams` afterwards yields the value set; total and map are unchanged |
| Collecting.SumValuesAppend | src/main/java/com/digitalpebble/ngrams/NGramCollector.java:53 | the counts of two stretches of hits add up: the sum over both parses exactly when each part's does, and is then the sum of the two |
| Collecting.SumValuesTwice | src/main/java/com/digitalpebble/ngrams/NGramCollector.java:53 | the same hits twice over sum to twice their sum, and fail to parse exactly when they do once |
| Collecting.CollectAllSums | src/main/java/com/digitalpebble/ngrams/NGramCollector.java:48-53 | collecting a sequence of hits succeeds exactly when every count parses, and then adds the sum of all counts to the total, repeated forms included |
| Collecting.CollectAllKeepsFormsWhenOff | src/main/java/com/digitalpebble/ngrams/NGramCollector.java:49-52 | with form collection off the map is never modified |
| Collecting.LastWriteWins | src/main/java/com/digitalpebble/ngrams/NGramCollector.java:50-51 | with form collection on, each text is mapped to the count of its last hit; texts no hit carries keep their previous entry or stay absent |
| Querying.Tokenize | src/main/java/com/digitalpebble/ngrams/NGramCorpus.java:74-84 | the tokenizer loop yields exactly the split-trim-filter tokens, in input order, and `length` equals their number |
| JavaStrings.Tokens | src/main/java/com/digitalpebble/ngrams/NGramCorpus.java:74-84 | every token is non-empty, starts and ends with a code unit `trim` keeps, and contains no `\s` character |
| JavaStrings.TokensOfConcat | src/main/java/com/digitalpebble/ngrams/NGramCorpus.java:74-84 | the tokens of `a + " " + b` are the tokens of `a` followed by those of `b`: order is preserved |
| JavaStrings.TokensOfJoin | src/main/java/com/digitalpebble/ngrams/NGramCorpus.java:74-84 | words joined by single spaces tokenize back to the same words |
| JavaStrings.AnalyzerTermsOfJoin | src/main/java/com/digitalpebble/ngrams/IndexCreator.java:153-156 | the analyzer splits a form of space-joined words back into its words |
| JavaStrings.ToLowerOfJoin | src/main/java/com/digitalpebble/ngrams/IndexCreator.java:155 | lower-casing a form lower-cases each of its words |
| JavaStrings.Trim | src/main/java/com/digitalpebble/ngrams/NGramCorpus.java:79 | the result is empty exactly when every code unit is at most a space; otherwise neither end is; it only keeps code units of the input and leaves an already trimmed string unchanged |
| JavaStrings.TrimStrips | src/main/java/com/digitalpebble/ngrams/NGramCorpus.java:79 | the result is the contiguous infix of the input that starts after the leading code units up to the space, with only such code units before and after it |
| JavaStrings.SplitOnPiecesAreSeparatorFree | src/main/java/com/digitalpebble/ngrams/NGramCorpus.java:74 | no piece of a split contains a separator character |
| JavaStrings.IndexOf | src/main/java/com/digitalpebble/ngrams/IndexCreator.java:149 | -1 exactly when the character is absent; otherwise the position of its first occurrence |
| Decimal.NatToStringRoundTrip | src/main/java/com/digitalpebble/ngrams/NGramCorpus.java:94 | the decimal text of a count reads back as that count |
| Decimal.NatToStringInjective | src/main/java/com/digitalpebble/ngrams/NGramCorpus.java:94 | two counts have the same decimal text exactly when they are equal |
| Decimal.ParseLong | src/main/java/com/digitalpebble/ngrams/NGramCollector.java:48 | a string parses exactly when it is an optional sign followed by at least one decimal digit and its value is within the signed 64-bit range; the result is the value of the digits, negated after a `-` |
| Decimal.LongRoundTrip | src/main/java/com/digitalpebble/ngrams/NGramCollector.java:48 | `Long.parseLong` inverts `Long.toString` on the whole 64-bit range |
| StringOrder.SortStringsSorted | src/main/java/com/digitalpebble/ngrams/IndexCreator.java:64 | the sort of a listing is in ascending `compareTo` order |
| StringOrder.SortStrings | src/main/java/com/digitalpebble/ngrams/IndexCreator.java:94 | the sort of a listing is a permutation of it |
| StringOrder.SortedPermutationsAreEqual | src/main/java/com/digitalpebble/ngrams/IndexCreator.java:64 | two sorted permutations of the same names are equal, so any correct sort gives the same order |
| Querying.BuildOccurrenceQuery | src/main/java/com/digitalpebble/ngrams/NGramCorpus.java:89-117 | the query-building loop yields the conjunction of the phrase of the tokens (lower-cased on `lowercase` in lowercase mode, verbatim on `text` otherwise) and the term `length` = decimal token count |
| Querying.OccurrenceQueryMatches | src/main/java/com/digitalpebble/ngrams/NGramCorpus.java:96-114 | the query matches a record exactly when its length is the token count and the chosen field holds the phrase terms consecutively |
| Querying.LengthDiscrimination | src/main/java/com/digitalpebble/ngrams/NGramCorpus.java:110-114 | a record of another length never matches, whatever its text |
| Querying.TotalsDocNeverMatches | src/main/java/com/digitalpebble/ngrams/NGramCorpus.java:110-114 | the totals record never answers a phrase query |
| Querying.CaseSensitiveMatch | src/main/java/com/digitalpebble/ngrams/NGramCorpus.java:63-65 | in the default mode a record of n words answers an n-token query exactly when its words are the tokens, letter case included |
| Querying.CaseInsensitiveMatch | src/main/java/com/digitalpebble/ngrams/NGramCorpus.java:99-108 | in lowercase mode a record of n words answers an n-token query exactly when its words equal the tokens up to letter case |
| Querying.RecordOfFields | src/main/java/com/digitalpebble/ngrams/IndexCreator.java:150-164 | the record of the line `w1 ... wn<TAB>count` in bucket n has text `w1 ... wn`, its analyzed text is the words, its analyzed lowercase field the lower-cased words |
| Querying.IngestedLineIsFound | src/main/java/com/digitalpebble/ngrams/NGramCorpus.java:72-124 | round trip: when the line `w1 ... wn<TAB>count` was indexed in bucket n and no other record answers, querying `w1 ... wn` returns the count, in either mode |
| Querying.IndexedRecordIsFound | src/main/java/com/digitalpebble/ngrams/NGramCorpus.java:72-124 | the record of `w1 ... wn<TAB>count` anywhere in an index where no two records answer the query `w1 ... wn` is what that query returns, in either mode |
| Querying.CorpusLineIsFound | src/main/java/com/digitalpebble/ngrams/NGramCorpus.java:72-124 | the whole round trip: the line `w1 ... wn<TAB>count` of a readable data file of the bucket-n directory is found, with that count, by querying `w1 ... wn` on the index of a completed build when no two records answer that query |
| Querying.OccurrencesOfSingleHit | src/main/java/com/digitalpebble/ngrams/NGramCorpus.java:119-124 | a query with one hit returns that hit's count |
| Querying.OccurrencesAreSums | src/main/java/com/digitalpebble/ngrams/NGramCorpus.java:119-124 | the occurrences of a query are the sum of the counts of all its hits, or a NumberFormat failure when one does not parse |
| Querying.RebuiltIndexDoublesOccurrences | src/main/java/com/digitalpebble/ngrams/IndexCreator.java:48-49 | an index holding its documents twice, as building the same corpus twice into one directory leaves it, answers every query with twice the count, or fails as the single index does |
| Querying.FormsOfHits | src/main/java/com/digitalpebble/ngrams/NGramCorpus.java:126-131 | `getForms` fails exactly when `getOccurrences` does; otherwise it maps each text of the hits to the count of its last hit and holds no other key |
| Querying.TotalsQueryMatches | src/main/java/com/digitalpebble/ngrams/NGramCorpus.java:52 | the constructor's query finds exactly the totals records labelled `"1"` |
| Querying.MissingTotalsGivesZero | src/main/java/com/digitalpebble/ngrams/NGramCorpus.java:52-53 | without a 1-gram totals record the total number of tokens is 0, not an error |
| Querying.NGramCorpus.Search | src/main/java/com/digitalpebble/ngrams/NGramCorpus.java:122 | the search collects every hit in index order; it fails exactly when collecting fails, and otherwise leaves the collector in the state `CollectAll` gives |
| Querying.NGramCorpus.GetOccurrences | src/main/java/com/digitalpebble/ngrams/NGramCorpus.java:119-124 | a fresh collector with form collection off: the result is `Occurrences`, the summed counts of the hits |
| Querying.NGramCorpus.GetForms | src/main/java/com/digitalpebble/ngrams/NGramCorpus.java:126-131 | a fresh collector with form collection on: the result is `Forms`, the map of the hits |
| Querying.NGramCorpus.GetOccurrencesOfTokens | src/main/java/com/digitalpebble/ngrams/NGramCorpus.java:89-117 | the occurrences of the query built from the tokens; `EmptyPhrase` for no tokens |
| Querying.NGramCorpus.GetOccurrencesOfText | src/main/java/com/digitalpebble/ngrams/NGramCorpus.java:72-86 | tokenizes the string and returns the occurrences of those tokens |
| Querying.NGramCorpus.GetOccurrencesOf | src/main/java/com/digitalpebble/ngrams/NGramCorpus.java:63-65 | the one-argument query is the case-sensitive one |
| Querying.NGramCorpus.GetTotalNumberTokens | src/main/java/com/digitalpebble/ngrams/NGramCorpus.java:59-61 | the total number of tokens fixed when the corpus was opened |
| Querying.NGramCorpus.constructor | src/main/java/com/digitalpebble/ngrams/NGramCorpus.java:38 | before it is opened, the total number of tokens is -1 |
| Querying.Open | src/main/java/com/digitalpebble/ngrams/NGramCorpus.java:47-61 | opening succeeds exactly when the totals query does, and `GetTotalNumberTokens` then returns its summed value; a failure is a NumberFormat failure |

## Left out

- Lucene itself: `IndexWriter.optimize`/`close`, the on-disk directory, scoring,
  and the `setNextReader`/`setScorer` callbacks. The index is the sequence of
  documents, and which documents a query reports is the `Matches` assumption.
- Matches: the WhitespaceAnalyzer's 255-character limit on a token is not modelled,
  so a longer word is one term here.
- NGramCorpus.GetOccurrencesOfTokens: for a query string without tokens the code searches with
  a phrase without terms; the model returns `EmptyPhrase` before any search instead
  of Lucene's answer to it (`Matches` itself lets such a phrase match nothing).
- NGramCorpus.Search: hits are collected in index order. `acceptsDocsOutOfOrder`
  allows Lucene another order, which changes only which count a repeated text keeps
  in `getForms`.
- NGramCorpus.Search: after a NumberFormatException, the state of the collector
  holding the hits collected so far is not described. The contract states only that
  the search fails.
- NGramCollector.Collect: the total is an unbounded integer; the signed 64-bit
  wrap-around of `totalOccurrences += value` is not modelled.
- ToLower: only ASCII letters are lower-cased. The Unicode and locale rules of
  `String.toLowerCase` are not modelled.
- ParseLong: only ASCII digits are accepted. `Long.parseLong` also accepts other
  Unicode decimal digits.
- LexLe: strings are compared char by char like `String.compareTo`, but a Dafny
  char is a Unicode scalar value, so a supplementary character is one char that
  sorts above U+FFFF. Java compares its high surrogate (0xD800-0xDBFF) instead,
  which sorts before U+E000-U+FFFF, so listings with such names may be ordered
  differently.
- CreateIndex: the root listing is always present. `File.list` returning null for
  the root, which makes `Arrays.sort` throw, is not modelled.
- File access and the console: the file system is the `Corpus` value, and the
  progress output and stack traces are left out.
- The `main` methods and their argument handling, and `NGramCorpusTester.java`,
  are not part of this model.
- Querying: the total of a complete build is not proved to be the first line of
  `1gms/total`. What is proved: the constructor's query finds exactly the `"1"`
  totals records (`TotalsQueryMatches`), `1gms` contributes one such record first
  (`OneGramEntry`), and an index without one gives 0 (`MissingTotalsGivesZero`).

=== FILE: collecting.dfy ===
/** NGramCollector: the Lucene Collector that receives every hit of a search and
    accumulates the parsed counts, and optionally the form of each hit.

    The collector's state is a Tally: the running total and the map from stored text
    to count. A document's text is null for the totals document, hence the
    Option<string> keys. CollectStep and CollectAll describe one call of collect and a
    whole search; the class does the same work field by field. */
module Collecting {
  import opened Wrappers
  import opened Decimal
  import opened Documents

  datatype Tally = Tally(total: int, forms: map<Option<string>, int>)

  /** doc.get("text"): the key a hit is recorded under. */
  function FormKey(d: Doc): Option<string> {
    Get(d, TextField)
  }

  /** Long.parseLong(doc.get("value")); the value field is always stored, and None
      stands for the NumberFormatException. */
  function ParsedValue(d: Doc): Option<int> {
    ParseLong(d.value)
  }

  /** One call of collect on a state t: it fails exactly when the count does not
      parse; otherwise the count is added to the total and, when collecting forms,
      recorded under the hit's text, every other key keeping its entry. */
  function CollectStep(t: Tally, d: Doc, collectNgrams: bool): (r: Option<Tally>)
    ensures r.Some? <==> ParsedValue(d).Some?
    ensures r.Some? ==> r.value.total == t.total + ParsedValue(d).value
    ensures r.Some? ==> r.value.forms.Keys == if collectNgrams then t.forms.Keys + {FormKey(d)} else t.forms.Keys
    ensures r.Some? && collectNgrams ==> r.value.forms[FormKey(d)] == ParsedValue(d).value
    ensures r.Some? ==> forall k :: k in t.forms && k != FormKey(d) ==> r.value.forms[k] == t.forms[k]
    ensures r.Some? && !collectNgrams ==> r.value.forms == t.forms
  {
    match ParsedValue(d)
    case None => None
    case Some(v) => Some(Tally(t.total + v, if collectNgrams then t.forms[FormKey(d) := v] else t.forms))
  }

  /** collect applied to each hit in turn; None when one of them throws. */
  function CollectAll(t: Tally, docs: seq<Doc>, collectNgrams: bool): Option<Tally>
    decreases |docs|
  {
    if |docs| == 0 then Some(t)
    else
      match CollectStep(t, docs[0], collectNgrams)
      case None => None
      case Some(t1) => CollectAll(t1, docs[1..], collectNgrams)
  }

  /** The sum of the counts of docs, or None when one is not a number. */
  function SumValues(docs: seq<Doc>): Option<int> {
    if |docs| == 0 then Some(0)
    else
      match (ParsedValue(docs[0]), SumValues(docs[1..]))
      case (Some(v), Some(rest)) => Some(v + rest)
      case _ => None
  }

  /** The counts of two stretches of hits add up: the sum over both parses exactly
      when each part's does. */
  lemma {:induction false} SumValuesAppend(a: seq<Doc>, b: seq<Doc>)
    ensures SumValues(a + b) == if SumValues(a).Some? && SumValues(b).Some?
                                then Some(SumValues(a).value + SumValues(b).value) else None
  {
    if |a| == 0 {
      assert a + b == b;
    } else {
      assert (a + b)[0] == a[0] && (a + b)[1..] == a[1..] + b;
      SumValuesAppend(a[1..], b);
    }
  }

  /** The same hits twice over sum to twice their sum. */
  lemma SumValuesTwice(h: seq<Doc>)
    ensures SumValues(h + h) == if SumValues(h).Some? then Some(2 * SumValues(h).value) else None
  {
    var s := SumValues(h);
    SumValuesAppend(h, h);
    if s.Some? {
      assert SumValues(h + h) == Some(s.value + s.value);
    } else {
      assert SumValues(h + h) == None;
    }
  }

  /** The count of the last document of docs recorded under key, if any. */
  function LastFormValue(docs: seq<Doc>, key: Option<string>): Option<int> {
    if |docs| == 0 then None
    else
      var later := LastFormValue(docs[1..], key);
      if later.Some? then later
      else if FormKey(docs[0]) == key then ParsedValue(docs[0])
      else None
  }

  /** Collecting succeeds exactly when every count parses, and then adds all of them,
      repeated forms included, to the total. */
  lemma {:induction false} CollectAllSums(t: Tally, docs: seq<Doc>, collectNgrams: bool)
    ensures CollectAll(t, docs, collectNgrams).Some? <==> SumValues(docs).Some?
    ensures CollectAll(t, docs, collectNgrams).Some? ==>
              CollectAll(t, docs, collectNgrams).value.total == t.total + SumValues(docs).value
    decreases |docs|
  {
    if |docs| > 0 {
      var s := CollectStep(t, docs[0], collectNgrams);
      if s.Some? {
        CollectAllSums(s.value, docs[1..], collectNgrams);
      }
    }
  }

  /** With form collection off the map is never touched. */
  lemma {:induction false} CollectAllKeepsFormsWhenOff(t: Tally, docs: seq<Doc>)
    ensures CollectAll(t, docs, false).Some? ==> CollectAll(t, docs, false).value.forms == t.forms
    decreases |docs|
  {
    if |docs| > 0 {
      var s := CollectStep(t, docs[0], false);
      if s.Some? {
        CollectAllKeepsFormsWhenOff(s.value, docs[1..]);
      }
    }
  }

  /** With form collection on, each key ends up with the count of the last hit stored
      under it; keys no hit uses keep their previous entry, or stay absent. */
  lemma {:induction false} LastWriteWins(t: Tally, docs: seq<Doc>, key: Option<string>)
    requires CollectAll(t, docs, true).Some?
    ensures var r := CollectAll(t, docs, true).value;
            && (LastFormValue(docs, key).Some? ==> key in r.forms && r.forms[key] == LastFormValue(docs, key).value)
            && (LastFormValue(docs, key).None? ==>
                  (key in r.forms <==> key in t.forms) && (key in t.forms ==> r.forms[key] == t.forms[key]))
    decreases |docs|
  {
    if |docs| > 0 {
      var t1 := CollectStep(t, docs[0], true).value;
      LastWriteWins(t1, docs[1..], key);
    }
  }

  /** The remaining hits from position i on: one call of collect, then the rest. */
  lemma CollectAllAt(t: Tally, docs: seq<Doc>, i: nat, collectNgrams: bool)
    requires i < |docs|
    ensures CollectStep(t, docs[i], collectNgrams).None? ==> CollectAll(t, docs[i..], collectNgrams).None?
    ensures CollectStep(t, docs[i], collectNgrams).Some? ==>
              CollectAll(t, docs[i..], collectNgrams)
              == CollectAll(CollectStep(t, docs[i], collectNgrams).value, docs[i + 1..], collectNgrams)
  {
    assert docs[i..][0] == docs[i] && docs[i..][1..] == docs[i + 1..];
  }

  class NGramCollector {
    var ngramForms: map<Option<string>, int>
    var totalOccurrences: int
    var collectNgrams: bool

    constructor ()
      ensures ngramForms == map[] && totalOccurrences == 0 && !collectNgrams
    {
      ngramForms := map[];
      totalOccurrences := 0;
      collectNgrams := false;
    }

    function State(): Tally
      reads this
    {
      Tally(totalOccurrences, ngramForms)
    }

    /** getMap: the forms recorded so far. */
    function GetMap(): (m: map<Option<string>, int>)
      reads this
      ensures m == State().forms
    {
      ngramForms
    }

    /** getTotalOccurrences: the counts summed so far. */
    function GetTotalOccurrences(): (n: int)
      reads this
      ensures n == State().total
    {
      totalOccurrences
    }

    /** isCollectNgrams: whether collect records forms. */
    function IsCollectNgrams(): (b: bool)
      reads this
      ensures b == collectNgrams
    {
      collectNgrams
    }

    /** collect: parse the count; record the form when collecting forms; add the
        count to the total. A count that does not parse changes nothing (ok false). */
    method Collect(doc: Doc) returns (ok: bool)
      modifies this
      ensures ok <==> ParsedValue(doc).Some?
      ensures ok ==> totalOccurrences == old(totalOccurrences) + ParsedValue(doc).value
      ensures ok && collectNgrams ==> ngramForms == old(ngramForms)[FormKey(doc) := ParsedValue(doc).value]
      ensures !ok || !collectNgrams ==> ngramForms == old(ngramForms)
      ensures !ok ==> totalOccurrences == old(totalOccurrences)
      ensures collectNgrams == old(collectNgrams)
      ensures CollectStep(old(State()), doc, collectNgrams) == if ok then Some(State()) else None
    {
      var value := ParsedValue(doc);
      if value.None? {
        // Long.parseLong throws NumberFormatException
        return false;
      }
      if IsCollectNgrams() {
        var key := FormKey(doc);
        ngramForms := ngramForms[key := value.value];
      }
      totalOccurrences := totalOccurrences + value.value;
      return true;
    }

    /** clear: total and map reset, the collect-forms switch kept. */
    method Clear()
      modifies this
      ensures totalOccurrences == 0 && ngramForms == map[]
      ensures collectNgrams == old(collectNgrams)
    {
      totalOccurrences := 0;
      ngramForms := map[];
    }

    method SetCollectNgrams(collect: bool)
      modifies this
      ensures IsCollectNgrams() == collect
      ensures State() == old(State())
    {
      collectNgrams := collect;
    }
  }
}

=== FILE: decimal.dfy ===
/** Decimal text of numbers: Integer.toString / Long.toString of a count, and
    Long.parseLong, which the collector applies to every stored count. */
module Decimal {
  import opened Wrappers

  const MinLong: int := -0x8000_0000_0000_0000
  const MaxLong: int := 0x7FFF_FFFF_FFFF_FFFF

  predicate IsDigit(c: char) {
    '0' <= c <= '9'
  }

  predicate AllDigits(s: string) {
    forall i :: 0 <= i < |s| ==> IsDigit(s[i])
  }

  function DigitChar(d: nat): (c: char)
    requires d < 10
    ensures IsDigit(c) && c as int - '0' as int == d
  {
    (d + '0' as int) as char
  }

  /** Integer.toString of a non-negative number: its decimal digits, with no leading zero. */
  function NatToString(n: nat): (s: string)
    ensures |s| > 0 && AllDigits(s)
    ensures s[0] == '0' ==> n == 0 && s == "0"
  {
    if n < 10 then [DigitChar(n)] else NatToString(n / 10) + [DigitChar(n % 10)]
  }

  /** The number a string of decimal digits denotes. */
  function DigitsValue(s: string): nat
    requires AllDigits(s)
  {
    if |s| == 0 then 0 else DigitsValue(s[..|s| - 1]) * 10 + (s[|s| - 1] as int - '0' as int)
  }

  /** Reading back the decimal text of n gives n. */
  lemma {:induction false} NatToStringRoundTrip(n: nat)
    ensures DigitsValue(NatToString(n)) == n
  {
    if n >= 10 {
      NatToStringRoundTrip(n / 10);
      var s := NatToString(n);
      assert s[..|s| - 1] == NatToString(n / 10);
    }
  }

  /** Distinct counts have distinct decimal texts. */
  lemma NatToStringInjective(a: nat, b: nat)
    ensures NatToString(a) == NatToString(b) <==> a == b
  {
    NatToStringRoundTrip(a);
    NatToStringRoundTrip(b);
  }

  /** The text after an optional leading '-' or '+'. */
  function Unsigned(s: string): string {
    if |s| > 0 && (s[0] == '-' || s[0] == '+') then s[1..] else s
  }

  /** The syntax Long.parseLong accepts: an optional sign, then at least one ASCII digit. */
  predicate LongSyntax(s: string) {
    |Unsigned(s)| > 0 && AllDigits(Unsigned(s))
  }

  /** The number such a string denotes, negative after '-'. */
  function SignedValue(s: string): int
    requires LongSyntax(s)
  {
    var m: int := DigitsValue(Unsigned(s));
    if s[0] == '-' then -m else m
  }

  /** Long.parseLong: an optional '-' or '+' followed by at least one ASCII digit,
      denoting a value within the signed 64-bit range; anything else is a
      NumberFormatException, here None. */
  function ParseLong(s: string): (r: Option<int>)
    ensures r.Some? <==> LongSyntax(s) && MinLong <= SignedValue(s) <= MaxLong
    ensures r.Some? ==> r.value == SignedValue(s)
    ensures r.Some? ==> |s| > 0 && forall i :: 0 < i < |s| ==> IsDigit(s[i])
    ensures r.Some? ==> IsDigit(s[0]) || ((s[0] == '-' || s[0] == '+') && |s| > 1)
    ensures r.Some? ==> MinLong <= r.value <= MaxLong
    ensures r.Some? && r.value < 0 ==> s[0] == '-'
  {
    if |s| == 0 then None
    else
      var digits := if s[0] == '-' || s[0] == '+' then s[1..] else s;
      if |digits| == 0 || !AllDigits(digits) then None
      else
        var m: int := DigitsValue(digits);
        var v: int := if s[0] == '-' then -m else m;
        if MinLong <= v <= MaxLong then Some(v) else None
  }

  /** Long.toString. */
  function LongToString(n: int): string {
    if n < 0 then "-" + NatToString(-n) else NatToString(n)
  }

  /** Long.parseLong inverts Long.toString on the whole 64-bit range. */
  lemma LongRoundTrip(n: int)
    requires MinLong <= n <= MaxLong
    ensures ParseLong(LongToString(n)) == Some(n)
  {
    var t := LongToString(n);
    if n < 0 {
      NatToStringRoundTrip(-n);
      assert t[0] == '-' && t[1..] == NatToString(-n);
      assert Unsigned(t) == NatToString(-n);
    } else {
      NatToStringRoundTrip(n);
      assert Unsigned(t) == t;
    }
    assert LongSyntax(t) && SignedValue(t) == n;
  }
}

=== FILE: documents.dfy ===
/** The Lucene side of the model: the documents IndexCreator adds to the index, the
    three query kinds NGramCorpus builds, and the rule deciding which documents a
    search reports.

    Matches is an ASSUMPTION about Lucene 3 (TermQuery, PhraseQuery with slop 0,
    BooleanQuery whose clauses are all Occur.MUST, fields analyzed by
    WhitespaceAnalyzer), written out so that the rest can be proved against it.
    It is not verified Lucene. */
module Documents {
  import opened Wrappers
  import opened JavaStrings

  /** The five field names the indexer uses: "text", "lowercase", "length", "value"
      and "totalTokenNums". */
  datatype Field = TextField | LowercaseField | LengthField | ValueField | TotalTokenNumsField

  /** One Lucene document: either an n-gram record (fields text, lowercase, length,
      value) or the totals record (fields totalTokenNums, value). */
  datatype Doc =
    | NGramDoc(text: string, lowercase: string, length: string, value: string)
    | TotalsDoc(totalTokenNums: string, value: string)

  /** The terms a field puts in the inverted index. text and lowercase are analyzed:
      their whitespace-separated words. length and totalTokenNums are not analyzed:
      the whole value is one term. value is stored but not indexed. */
  function IndexedTerms(d: Doc, field: Field): seq<string> {
    match d
    case NGramDoc(text, lowercase, length, _) =>
      if field == TextField then AnalyzerTerms(text)
      else if field == LowercaseField then AnalyzerTerms(lowercase)
      else if field == LengthField then [length]
      else []
    case TotalsDoc(totalTokenNums, _) =>
      if field == TotalTokenNumsField then [totalTokenNums] else []
  }

  /** Document.get at search time: the value of a stored field, or null (None).
      Only text and value are stored; the totals record has no text. */
  function Get(d: Doc, field: Field): (r: Option<string>)
    ensures field == ValueField ==> r == Some(d.value)
    ensures field == TextField ==> r == (if d.NGramDoc? then Some(d.text) else None)
    ensures field == LowercaseField || field == LengthField || field == TotalTokenNumsField ==> r == None
  {
    if field == ValueField then Some(d.value)
    else if field == TextField && d.NGramDoc? then Some(d.text)
    else None
  }

  /** A query: a single term of a field, a phrase of terms at consecutive positions of a
      field (slop 0), or a conjunction of required clauses. */
  datatype Query =
    | Term(field: Field, text: string)
    | Phrase(field: Field, terms: seq<string>)
    | And(clauses: seq<Query>)

  /** run occurs in terms from position k on. */
  predicate RunAt(terms: seq<string>, run: seq<string>, k: nat) {
    k + |run| <= |terms| && terms[k..k + |run|] == run
  }

  /** run occurs as consecutive elements of terms. */
  predicate ContainsRun(terms: seq<string>, run: seq<string>) {
    exists k: nat | k <= |terms| :: RunAt(terms, run, k)
  }

  /** When Lucene reports d as a hit of q. A phrase without terms and a conjunction
      without clauses match nothing; the query builder never produces either. */
  predicate Matches(q: Query, d: Doc) {
    match q
    case Term(f, t) => t in IndexedTerms(d, f)
    case Phrase(f, ts) => |ts| > 0 && ContainsRun(IndexedTerms(d, f), ts)
    case And(cs) => |cs| > 0 && forall i :: 0 <= i < |cs| ==> Matches(cs[i], d)
  }

  /** A conjunction of two required clauses matches when both do. */
  lemma MatchesBoth(a: Query, b: Query, d: Doc)
    ensures Matches(And([a, b]), d) <==> Matches(a, d) && Matches(b, d)
  {
    var cs := [a, b];
    if Matches(a, d) && Matches(b, d) {
      forall i | 0 <= i < |cs| ensures Matches(cs[i], d) {
        if i == 0 {
          assert cs[i] == a;
        } else {
          assert cs[i] == b;
        }
      }
    }
    if Matches(And(cs), d) {
      assert Matches(cs[0], d) && Matches(cs[1], d);
    }
  }

  /** A document as a one-element hit list, or nothing. */
  function Hit(q: Query, d: Doc): seq<Doc> {
    if Matches(q, d) then [d] else []
  }

  /** The documents a search hands to the collector, in index order. */
  function Hits(index: seq<Doc>, q: Query): (hits: seq<Doc>)
    ensures |hits| <= |index|
  {
    if |index| == 0 then [] else Hit(q, index[0]) + Hits(index[1..], q)
  }

  /** A search reports exactly the documents of the index that match. */
  lemma {:induction false} HitsMembers(index: seq<Doc>, q: Query)
    ensures forall d :: d in Hits(index, q) <==> d in index && Matches(q, d)
  {
    if |index| > 0 {
      HitsMembers(index[1..], q);
      assert index == [index[0]] + index[1..];
    }
  }

  /** Searching a concatenated index searches each part in turn. */
  lemma {:induction false} HitsAppend(a: seq<Doc>, b: seq<Doc>, q: Query)
    ensures Hits(a + b, q) == Hits(a, q) + Hits(b, q)
  {
    if |a| == 0 {
      assert a + b == b;
    } else {
      var head := Hit(q, a[0]);
      assert (a + b)[0] == a[0] && (a + b)[1..] == a[1..] + b;
      HitsAppend(a[1..], b, q);
      assert Hits(a + b, q) == head + (Hits(a[1..], q) + Hits(b, q));
      AppendAssociates(head, Hits(a[1..], q), Hits(b, q));
    }
  }

  /** When exactly one document of the index matches, the search yields exactly it. */
  lemma {:induction false} HitsOfSingleMatch(index: seq<Doc>, q: Query, i: nat)
    requires i < |index| && Matches(q, index[i])
    requires forall j :: 0 <= j < |index| && j != i ==> !Matches(q, index[j])
    ensures Hits(index, q) == [index[i]]
  {
    if i == 0 {
      NoHitsIn(index, q, 1, |index|);
      assert index[1..|index|] == index[1..];
    } else {
      var rest := index[1..];
      forall j | 0 <= j < |rest| && j != i - 1 ensures !Matches(q, rest[j]) {
        assert rest[j] == index[j + 1];
      }
      assert rest[i - 1] == index[i];
      HitsOfSingleMatch(rest, q, i - 1);
      assert !Matches(q, index[0]);
      assert Hits(index, q) == Hit(q, index[0]) + Hits(rest, q);
    }
  }

  /** When no two documents of the index match, a matching document is the only one. */
  lemma OnlyMatch(index: seq<Doc>, q: Query, i: nat)
    requires i < |index| && Matches(q, index[i])
    requires forall j, k :: 0 <= j < k < |index| ==> !(Matches(q, index[j]) && Matches(q, index[k]))
    ensures forall j :: 0 <= j < |index| && j != i ==> !Matches(q, index[j])
  {
  }

  /** A stretch of the index where nothing matches contributes no hit. */
  lemma {:induction false} NoHitsIn(index: seq<Doc>, q: Query, lo: nat, hi: nat)
    requires lo <= hi <= |index|
    requires forall j :: lo <= j < hi ==> !Matches(q, index[j])
    ensures Hits(index[lo..hi], q) == []
    decreases hi - lo
  {
    if lo < hi {
      NoHitsIn(index, q, lo + 1, hi);
      assert index[lo..hi][1..] == index[lo + 1..hi];
    }
  }
}

=== FILE: indexing.dfy ===
/** IndexCreator: turns a corpus in the Web 1T layout into Lucene documents.

    The file system is an input value (Corpus): the root listing, the listing of each
    directory, and the lines of each readable file. The IndexWriter is an append-only
    sequence of documents held in a class. The functions below say, level by level
    (line, file, bucket, directory, corpus), which documents are appended and how the
    step ends; the methods of IndexCreator do the work with loops and are proved to
    append exactly those documents. */
module Indexing {
  import opened Wrappers
  import opened JavaStrings
  import opened Decimal
  import opened StringOrder
  import opened Documents

  /** A file as a BufferedReader delivers it: its lines, then either the end of the
      file or (readError) an IOException. */
  datatype SourceFile = SourceFile(lines: seq<string>, readError: bool)

  /** A path below the corpus root: a directory name and a file name. */
  type Path = (string, string)

  /** The corpus as the indexer sees it.
      root: what File.list returns for the corpus directory.
      listings: what File.list returns for each sub-directory; a name missing here is
      not a directory, for which File.list returns null.
      files: the files that can be opened; opening any other path throws
      FileNotFoundException, an IOException. */
  datatype Corpus = Corpus(root: seq<string>, listings: map<string, seq<string>>, files: map<Path, SourceFile>)

  function OpenFile(c: Corpus, p: Path): SourceFile {
    if p in c.files then c.files[p] else SourceFile([], true)
  }

  /** How a step ends: normally, with an IOException, or with an unchecked exception
      that no handler of IndexCreator catches. */
  datatype Ending = Completed | IOFailure | Crashed

  /** The documents a step appends, in order, and how it ends. */
  datatype Scan = Scan(docs: seq<Doc>, ending: Ending)

  /** docs appended, then the rest of the step. */
  function Then(docs: seq<Doc>, rest: Scan): Scan {
    Scan(docs + rest.docs, rest.ending)
  }

  const OneGramDir := "1gms"
  const TotalFile := "total"
  const VocabFile := "vocab"
  const IdxSuffix := ".idx"
  const OneGramLabel := "1"

  /** The characters the regular expression '.' does not match. */
  predicate IsJavaLineTerminator(c: char) {
    c == '\n' || c == '\r' || c == '\U{85}' || c == '\U{2028}' || c == '\U{2029}'
  }

  /** d.matches(".gms"): exactly one character other than a line terminator, then "gms". */
  predicate IsNGramDirName(d: string) {
    |d| == 4 && !IsJavaLineTerminator(d[0]) && d[1..] == "gms"
  }

  /** A name matches ".gms" exactly when it is one character other than a line
      terminator followed by "gms": "1gms" does, "10gms" does not. */
  lemma NGramDirNameShape(c: char, rest: string)
    ensures IsNGramDirName([c] + rest) <==> !IsJavaLineTerminator(c) && rest == "gms"
    ensures !IsNGramDirName("")
    ensures IsNGramDirName(OneGramDir) && !IsNGramDirName("10gms")
  {
    assert ([c] + rest)[1..] == rest;
    assert "10gms"[1..] != "gms" by {
      assert |"10gms"[1..]| == 4;
    }
  }

  /** The length label of an n-gram directory: its first character. */
  function BucketLabel(d: string): string
    requires |d| > 0
  {
    [d[0]]
  }

  // ---------------------------------------------------------------------------
  // Specification of the scan

  /** One corpus line: the text before the first tab is the form, everything after
      it the count. A line without a tab makes substring(0, -1) throw (None). */
  function ParseLine(line: string, ngram: string): (r: Option<Doc>)
    ensures r.None? <==> '\t' !in line
    ensures r.Some? ==> r.value.NGramDoc? && r.value.lowercase == ToLower(r.value.text) && r.value.length == ngram
  {
    var postab := IndexOf(line, '\t');
    if postab < 0 then None
    else
      var form := line[..postab];
      var count := line[postab + 1..];
      Some(NGramDoc(form, ToLower(form), ngram, count))
  }

  /** The record's text is the part of the line before the first tab, its value all
      the rest (later tabs included): the line is text, tab, value. */
  lemma ParseLineInverse(line: string, ngram: string)
    ensures ParseLine(line, ngram).Some? ==>
              var d := ParseLine(line, ngram).value;
              && d.text + "\t" + d.value == line
              && '\t' !in d.text
  {
    var postab := IndexOf(line, '\t');
    if postab >= 0 {
      assert line[..postab] + "\t" + line[postab + 1..] == line;
    }
  }

  /** Formatting a record as a corpus line and parsing it back gives the record:
      the count is kept verbatim, tabs included, and never parsed. */
  lemma ParseFormattedLine(form: string, count: string, ngram: string)
    requires '\t' !in form
    ensures ParseLine(form + "\t" + count, ngram) == Some(NGramDoc(form, ToLower(form), ngram, count))
  {
    var line := form + "\t" + count;
    assert line[|form|] == '\t' && line[..|form|] == form && line[|form| + 1..] == count;
    assert IndexOf(line, '\t') == |form|;
  }

  /** The lines of a file, in order, until one has no tab. */
  function LinesScan(ngram: string, lines: seq<string>): (s: Scan)
    ensures s.ending != IOFailure
    ensures |s.docs| <= |lines|
    ensures s.ending == Completed <==> forall i :: 0 <= i < |lines| ==> '\t' in lines[i]
  {
    if |lines| == 0 then Scan([], Completed)
    else
      match ParseLine(lines[0], ngram)
      case None => Scan([], Crashed)
      case Some(d) => Then([d], LinesScan(ngram, lines[1..]))
  }

  /** One step of reading a file: a parsed line is appended, and the documents still
      to come are those of the remaining lines. */
  lemma LinesScanStep(ngram: string, lines: seq<string>, i: nat, start: seq<Doc>, written: seq<Doc>)
    requires i < |lines| && ParseLine(lines[i], ngram).Some?
    requires start + LinesScan(ngram, lines).docs == written + LinesScan(ngram, lines[i..]).docs
    requires LinesScan(ngram, lines).ending == LinesScan(ngram, lines[i..]).ending
    ensures start + LinesScan(ngram, lines).docs
            == (written + [ParseLine(lines[i], ngram).value]) + LinesScan(ngram, lines[i + 1..]).docs
    ensures LinesScan(ngram, lines).ending == LinesScan(ngram, lines[i + 1..]).ending
  {
    assert lines[i..][1..] == lines[i + 1..];
  }

  /** A line without a tab ends the file. */
  lemma LinesScanStop(ngram: string, lines: seq<string>, i: nat)
    requires i < |lines| && ParseLine(lines[i], ngram).None?
    ensures LinesScan(ngram, lines[i..]) == Scan([], Crashed)
  {
  }

  /** readSourceFile: the lines, then the read error if the file has one. */
  function FileScan(ngram: string, f: SourceFile): (s: Scan)
    ensures s.ending == Completed <==> !f.readError && forall i :: 0 <= i < |f.lines| ==> '\t' in f.lines[i]
    ensures s.ending == IOFailure ==> f.readError
    ensures |s.docs| <= |f.lines|
  {
    var s := LinesScan(ngram, f.lines);
    if s.ending == Completed && f.readError then Scan(s.docs, IOFailure) else s
  }

  /** createIndexFileForlengthN: the files in order; the first one that does not end
      normally ends the bucket, with its ending. */
  function BucketScan(c: Corpus, ngram: string, paths: seq<Path>): (s: Scan)
    ensures s.ending == Completed <==> forall i :: 0 <= i < |paths| ==> FileScan(ngram, OpenFile(c, paths[i])).ending == Completed
  {
    if |paths| == 0 then Scan([], Completed)
    else
      var s := FileScan(ngram, OpenFile(c, paths[0]));
      if s.ending != Completed then s else Then(s.docs, BucketScan(c, ngram, paths[1..]))
  }

  /** One step of a bucket: the documents of file num are appended; unless that file
      ends abnormally, the documents still to come are those of the later files. */
  lemma BucketScanStep(c: Corpus, ngram: string, paths: seq<Path>, num: nat, start: seq<Doc>, written: seq<Doc>)
    requires num < |paths|
    requires start + BucketScan(c, ngram, paths).docs == written + BucketScan(c, ngram, paths[num..]).docs
    requires BucketScan(c, ngram, paths).ending == BucketScan(c, ngram, paths[num..]).ending
    ensures var f := FileScan(ngram, OpenFile(c, paths[num]));
            if f.ending != Completed then
              && start + BucketScan(c, ngram, paths).docs == written + f.docs
              && BucketScan(c, ngram, paths).ending == f.ending
            else
              && start + BucketScan(c, ngram, paths).docs == (written + f.docs) + BucketScan(c, ngram, paths[num + 1..]).docs
              && BucketScan(c, ngram, paths).ending == BucketScan(c, ngram, paths[num + 1..]).ending
  {
    assert paths[num..][1..] == paths[num + 1..];
  }

  /** writeTokenTotalFile: the first line of the file becomes the value of the totals
      document. When the first readLine returns null, the Field constructor throws a
      NullPointerException. */
  function TotalsScan(size: nat, f: SourceFile): (s: Scan)
    ensures s.ending == Completed <==> |f.lines| > 0
    ensures s.ending == IOFailure <==> |f.lines| == 0 && f.readError
    ensures s.ending == Completed ==> s.docs == [TotalsDoc(NatToString(size), f.lines[0])]
    ensures s.ending != Completed ==> s.docs == []
  {
    if |f.lines| > 0 then Scan([TotalsDoc(NatToString(size), f.lines[0])], Completed)
    else if f.readError then Scan([], IOFailure)
    else Scan([], Crashed)
  }

  /** The files of an n-gram directory that are indexed, in listing order. */
  function DataFiles(d: string, names: seq<string>): (paths: seq<Path>)
    ensures |paths| <= |names|
    ensures forall i :: 0 <= i < |paths| ==> paths[i].0 == d && !EndsWith(paths[i].1, IdxSuffix)
  {
    if |names| == 0 then []
    else (if EndsWith(names[0], IdxSuffix) then [] else [(d, names[0])]) + DataFiles(d, names[1..])
  }

  /** A file of the listing is indexed exactly when its name does not end in ".idx". */
  lemma {:induction false} DataFilesMembers(d: string, names: seq<string>)
    ensures forall f :: (d, f) in DataFiles(d, names) <==> f in names && !EndsWith(f, IdxSuffix)
  {
    if |names| > 0 {
      DataFilesMembers(d, names[1..]);
      assert names == [names[0]] + names[1..];
    }
  }

  /** One entry of the root listing. An IOException is caught here (the rest of the
      bucket is skipped, the scan goes on with the next entry); an unchecked exception
      is not. */
  function DirScan(c: Corpus, d: string): (s: Scan)
    ensures s.ending != IOFailure
    ensures d == OneGramDir ==>
              (s.ending == Completed <==> && TotalsScan(1, OpenFile(c, (d, TotalFile))).ending != Crashed
                                          && FileScan(OneGramLabel, OpenFile(c, (d, VocabFile))).ending != Crashed)
    ensures IsNGramDirName(d) && d != OneGramDir && d in c.listings ==>
              var b := BucketScan(c, BucketLabel(d), DataFiles(d, SortStrings(c.listings[d])));
              s.docs == b.docs && (s.ending == Completed <==> b.ending != Crashed)
    ensures IsNGramDirName(d) && d != OneGramDir && d !in c.listings ==> s == Scan([], Crashed)
    ensures !IsNGramDirName(d) && d != OneGramDir ==> s == Scan([], Completed)
  {
    if d == OneGramDir then
      var t := TotalsScan(1, OpenFile(c, (d, TotalFile)));
      if t.ending == Crashed then t
      else
        var v := BucketScan(c, OneGramLabel, [(d, VocabFile)]);
        assert [(d, VocabFile)][1..] == [];
        Scan(t.docs + v.docs, if v.ending == Crashed then Crashed else Completed)
    else if IsNGramDirName(d) then
      if d !in c.listings then Scan([], Crashed)
      else
        var b := BucketScan(c, BucketLabel(d), DataFiles(d, SortStrings(c.listings[d])));
        Scan(b.docs, if b.ending == Crashed then Crashed else Completed)
    else Scan([], Completed)
  }

  /** The entries in order, until one crashes. */
  function DirsScan(c: Corpus, names: seq<string>): (s: Scan)
    ensures s.ending != IOFailure
    ensures s.ending == Completed <==> forall i :: 0 <= i < |names| ==> DirScan(c, names[i]).ending == Completed
  {
    if |names| == 0 then Scan([], Completed)
    else
      var s := DirScan(c, names[0]);
      if s.ending == Crashed then s else Then(s.docs, DirsScan(c, names[1..]))
  }

  /** One step of the root listing: the documents of entry i are appended; unless the
      entry crashes, the documents still to come are those of the later entries. */
  lemma DirsScanStep(c: Corpus, names: seq<string>, i: nat, start: seq<Doc>, written: seq<Doc>)
    requires i < |names|
    requires start + DirsScan(c, names).docs == written + DirsScan(c, names[i..]).docs
    requires DirsScan(c, names).ending == DirsScan(c, names[i..]).ending
    ensures var s := DirScan(c, names[i]);
            if s.ending == Crashed then
              && start + DirsScan(c, names).docs == written + s.docs
              && DirsScan(c, names).ending == Crashed
            else
              && start + DirsScan(c, names).docs == (written + s.docs) + DirsScan(c, names[i + 1..]).docs
              && DirsScan(c, names).ending == DirsScan(c, names[i + 1..]).ending
  {
    assert names[i..][0] == names[i] && names[i..][1..] == names[i + 1..];
    var s := DirScan(c, names[i]);
    if s.ending != Crashed {
      assert DirsScan(c, names[i..]).docs == s.docs + DirsScan(c, names[i + 1..]).docs;
      AppendAssociates(written, s.docs, DirsScan(c, names[i + 1..]).docs);
    }
  }

  /** Two listings with the same names complete for the same entries. */
  lemma EveryEntryCompletes(c: Corpus, names: seq<string>, root: seq<string>)
    requires forall d :: d in names <==> d in root
    ensures (forall i :: 0 <= i < |names| ==> DirScan(c, names[i]).ending == Completed)
            <==> (forall d :: d in root ==> DirScan(c, d).ending == Completed)
  {
    if forall i :: 0 <= i < |names| ==> DirScan(c, names[i]).ending == Completed {
      forall d | d in root ensures DirScan(c, d).ending == Completed {
        var i :| 0 <= i < |names| && names[i] == d;
      }
    }
  }

  /** scanCorpus: the root entries in ascending String order. */
  function CorpusScan(c: Corpus): (s: Scan)
    ensures s.ending != IOFailure
    ensures s.ending == Completed <==> forall d :: d in c.root ==> DirScan(c, d).ending == Completed
  {
    var names := SortStrings(c.root);
    SortStringsMembers(c.root);
    EveryEntryCompletes(c, names, c.root);
    DirsScan(c, names)
  }

  // ---------------------------------------------------------------------------
  // The index writer and the indexer

  /** The Lucene IndexWriter, reduced to the documents of its index. It opens the
      index already in the directory, or creates an empty one, and appends to it. */
  class IndexWriter {
    var docs: seq<Doc>

    /** existing: the documents of the index already in the directory ([] when there
        is none). */
    constructor (existing: seq<Doc>)
      ensures docs == existing
    {
      docs := existing;
    }

    method AddDocument(d: Doc)
      modifies this
      ensures docs == old(docs) + [d]
    {
      docs := docs + [d];
    }
  }

  /** The loop of scanCorpus that keeps the files of a sorted listing whose names do
      not end in ".idx". */
  method SelectSourceFiles(d: string, subFiles: seq<string>) returns (subFilesF: seq<Path>)
    ensures subFilesF == DataFiles(d, subFiles)
  {
    subFilesF := [];
    var i := 0;
    while i < |subFiles|
      invariant 0 <= i <= |subFiles|
      invariant DataFiles(d, subFiles) == subFilesF + DataFiles(d, subFiles[i..])
    {
      var ff := subFiles[i];
      ghost var rest := DataFiles(d, subFiles[i + 1..]);
      assert subFiles[i..][1..] == subFiles[i + 1..];
      assert DataFiles(d, subFiles[i..]) == (if EndsWith(ff, IdxSuffix) then [] else [(d, ff)]) + rest;
      if !EndsWith(ff, IdxSuffix) {
        assert subFilesF + DataFiles(d, subFiles[i..]) == (subFilesF + [(d, ff)]) + rest;
        subFilesF := subFilesF + [(d, ff)];
      }
      i := i + 1;
    }
  }

  class IndexCreator {
    const writer: IndexWriter

    constructor (existing: seq<Doc>)
      ensures fresh(writer) && writer.docs == existing
    {
      writer := new IndexWriter(existing);
    }

    method ScanCorpus(c: Corpus) returns (ending: Ending)
      modifies writer
      ensures writer.docs == old(writer.docs) + CorpusScan(c).docs
      ensures ending == CorpusScan(c).ending
    {
      var mainDirs := SortStrings(c.root);
      var i := 0;
      while i < |mainDirs|
        invariant 0 <= i <= |mainDirs|
        invariant old(writer.docs) + DirsScan(c, mainDirs).docs == writer.docs + DirsScan(c, mainDirs[i..]).docs
        invariant DirsScan(c, mainDirs).ending == DirsScan(c, mainDirs[i..]).ending
      {
        DirsScanStep(c, mainDirs, i, old(writer.docs), writer.docs);
        var e := ScanEntry(c, mainDirs[i]);
        if e == Crashed {
          return Crashed;
        }
        i := i + 1;
      }
      return Completed;
    }

    /** The body of the loop of scanCorpus, for one entry d of the root listing. */
    method ScanEntry(c: Corpus, d: string) returns (ending: Ending)
      modifies writer
      ensures writer.docs == old(writer.docs) + DirScan(c, d).docs
      ensures ending == DirScan(c, d).ending
    {
      if d == OneGramDir {
        var size := 1;
        var e := WriteTokenTotalFile(c, size, (d, TotalFile));
        if e == Crashed {
          return Crashed;
        }
        var files := [(d, VocabFile)];
        e := CreateIndexFileForLengthN(c, OneGramLabel, files);
        return if e == Crashed then Crashed else Completed;
      } else if IsNGramDirName(d) {
        var size := BucketLabel(d);
        if d !in c.listings {
          // File.list returned null: Arrays.asList throws a NullPointerException
          return Crashed;
        }
        var subFiles := SortStrings(c.listings[d]);
        var subFilesF := SelectSourceFiles(d, subFiles);
        var e := CreateIndexFileForLengthN(c, size, subFilesF);
        return if e == Crashed then Crashed else Completed;
      }
      return Completed;
    }

    method WriteTokenTotalFile(c: Corpus, size: nat, ff: Path) returns (ending: Ending)
      modifies writer
      ensures writer.docs == old(writer.docs) + TotalsScan(size, OpenFile(c, ff)).docs
      ensures ending == TotalsScan(size, OpenFile(c, ff)).ending
    {
      var fr := OpenFile(c, ff);
      if |fr.lines| == 0 {
        // an IOException, or readLine returned null and new Field throws
        return if fr.readError then IOFailure else Crashed;
      }
      var totalNumberTokens := fr.lines[0];
      writer.AddDocument(TotalsDoc(NatToString(size), totalNumberTokens));
      return Completed;
    }

    method CreateIndexFileForLengthN(c: Corpus, length: string, targetFiles: seq<Path>) returns (ending: Ending)
      modifies writer
      ensures writer.docs == old(writer.docs) + BucketScan(c, length, targetFiles).docs
      ensures ending == BucketScan(c, length, targetFiles).ending
    {
      var num := 0;
      while num < |targetFiles|
        invariant 0 <= num <= |targetFiles|
        invariant old(writer.docs) + BucketScan(c, length, targetFiles).docs
                  == writer.docs + BucketScan(c, length, targetFiles[num..]).docs
        invariant BucketScan(c, length, targetFiles).ending == BucketScan(c, length, targetFiles[num..]).ending
      {
        BucketScanStep(c, length, targetFiles, num, old(writer.docs), writer.docs);
        var e := ReadSourceFile(c, length, targetFiles[num], num);
        if e != Completed {
          return e;
        }
        num := num + 1;
      }
      return Completed;
    }

    method ReadSourceFile(c: Corpus, ngram: string, source: Path, fileRank: int) returns (ending: Ending)
      modifies writer
      ensures writer.docs == old(writer.docs) + FileScan(ngram, OpenFile(c, source)).docs
      ensures ending == FileScan(ngram, OpenFile(c, source)).ending
    {
      var reader := OpenFile(c, source);
      var lines := reader.lines;
      var i := 0;
      while i < |lines|
        invariant 0 <= i <= |lines|
        invariant old(writer.docs) + LinesScan(ngram, lines).docs == writer.docs + LinesScan(ngram, lines[i..]).docs
        invariant LinesScan(ngram, lines).ending == LinesScan(ngram, lines[i..]).ending
      {
        var parsed := ParseLine(lines[i], ngram);
        if parsed.None? {
          // no tab: substring(0, -1) throws StringIndexOutOfBoundsException
          LinesScanStop(ngram, lines, i);
          return Crashed;
        }
        LinesScanStep(ngram, lines, i, old(writer.docs), writer.docs);
        writer.AddDocument(parsed.value);
        i := i + 1;
      }
      if reader.readError {
        return IOFailure;
      }
      return Completed;
    }
  }

  /** new IndexCreator(corpus, index): open a writer on the index directory, scan the
      corpus into it, then optimize and close it. The writer appends to the index
      already in the directory (existing), so building twice into the same directory
      stores every record twice. When an unchecked exception escapes the scan the
      constructor throws and the writer is never closed (None). */
  method CreateIndex(c: Corpus, existing: seq<Doc>) returns (index: Option<seq<Doc>>)
    ensures CorpusScan(c).ending == Completed ==> index == Some(existing + CorpusScan(c).docs)
    ensures CorpusScan(c).ending == Crashed ==> index == None
  {
    var creator := new IndexCreator(existing);
    var ending := creator.ScanCorpus(c);
    if ending == Crashed {
      return None;
    }
    return Some(creator.writer.docs);
  }

  // ---------------------------------------------------------------------------
  // Properties of the scan

  /** An n-gram record as readSourceFile builds it for bucket ngram. */
  predicate WellFormedRecord(doc: Doc, ngram: string) {
    && doc.NGramDoc?
    && '\t' !in doc.text
    && doc.lowercase == ToLower(doc.text)
    && doc.length == ngram
  }

  /** A document that entry d of the root listing can contribute: the totals record
      of "1gms", or a record labelled with the first character of d. */
  predicate FromEntry(doc: Doc, d: string) {
    && IsNGramDirName(d)
    && (|| (doc.TotalsDoc? && d == OneGramDir && doc.totalTokenNums == OneGramLabel)
        || WellFormedRecord(doc, BucketLabel(d)))
  }

  lemma {:induction false} LinesScanRecords(ngram: string, lines: seq<string>)
    ensures forall doc :: doc in LinesScan(ngram, lines).docs ==> WellFormedRecord(doc, ngram)
  {
    if |lines| > 0 {
      ParseLineInverse(lines[0], ngram);
      LinesScanRecords(ngram, lines[1..]);
    }
  }

  /** When every line has a tab, the file yields one record per line, in line order,
      each the parse of its line. */
  lemma {:induction false} WellFormedLinesAllIndexed(ngram: string, lines: seq<string>)
    requires forall i :: 0 <= i < |lines| ==> '\t' in lines[i]
    ensures LinesScan(ngram, lines).ending == Completed
    ensures |LinesScan(ngram, lines).docs| == |lines|
    ensures forall i :: 0 <= i < |lines| ==> Some(LinesScan(ngram, lines).docs[i]) == ParseLine(lines[i], ngram)
  {
    if |lines| > 0 {
      ParseLineInverse(lines[0], ngram);
      WellFormedLinesAllIndexed(ngram, lines[1..]);
      var rest := LinesScan(ngram, lines[1..]).docs;
      var docs := LinesScan(ngram, lines).docs;
      assert docs == [ParseLine(lines[0], ngram).value] + rest;
      forall i | 0 < i < |lines| ensures Some(docs[i]) == ParseLine(lines[i], ngram) {
        assert docs[i] == rest[i - 1] && lines[i] == lines[1..][i - 1];
      }
    }
  }

  /** The first line without a tab ends the file with an unchecked exception; the
      records of the lines before it have been added. */
  lemma {:induction false} TablessLineStopsFile(ngram: string, lines: seq<string>, k: nat)
    requires k < |lines| && '\t' !in lines[k]
    requires forall i :: 0 <= i < k ==> '\t' in lines[i]
    ensures LinesScan(ngram, lines) == Scan(LinesScan(ngram, lines[..k]).docs, Crashed)
  {
    ParseLineInverse(lines[0], ngram);
    if k > 0 {
      TablessLineStopsFile(ngram, lines[1..], k - 1);
      assert lines[..k][0] == lines[0] && lines[..k][1..] == lines[1..][..k - 1];
    }
  }

  /** Bucket of a concatenation of file lists: the second list is read only when the
      first one completes. */
  lemma {:induction false} BucketScanAppend(c: Corpus, ngram: string, a: seq<Path>, b: seq<Path>)
    ensures BucketScan(c, ngram, a + b)
            == if BucketScan(c, ngram, a).ending == Completed then Then(BucketScan(c, ngram, a).docs, BucketScan(c, ngram, b))
               else BucketScan(c, ngram, a)
  {
    if |a| == 0 {
      assert a + b == b;
    } else {
      assert (a + b)[0] == a[0] && (a + b)[1..] == a[1..] + b;
      BucketScanAppend(c, ngram, a[1..], b);
      var f := FileScan(ngram, OpenFile(c, a[0]));
      if f.ending == Completed {
        var r := BucketScan(c, ngram, a[1..]);
        if r.ending == Completed {
          AppendAssociates(f.docs, r.docs, BucketScan(c, ngram, b).docs);
        }
      }
    }
  }

  /** An IOException while reading file k of a bucket skips the files after it; the
      records read from file k before the failure are kept. */
  lemma IOFailureStopsBucket(c: Corpus, ngram: string, paths: seq<Path>, k: nat)
    requires k < |paths|
    requires BucketScan(c, ngram, paths[..k]).ending == Completed
    requires FileScan(ngram, OpenFile(c, paths[k])).ending == IOFailure
    ensures BucketScan(c, ngram, paths)
            == Scan(BucketScan(c, ngram, paths[..k]).docs + FileScan(ngram, OpenFile(c, paths[k])).docs, IOFailure)
  {
    assert paths == paths[..k] + paths[k..];
    BucketScanAppend(c, ngram, paths[..k], paths[k..]);
    assert paths[k..][0] == paths[k];
  }

  lemma {:induction false} BucketScanRecords(c: Corpus, ngram: string, paths: seq<Path>)
    ensures forall doc :: doc in BucketScan(c, ngram, paths).docs ==> WellFormedRecord(doc, ngram)
  {
    if |paths| > 0 {
      LinesScanRecords(ngram, OpenFile(c, paths[0]).lines);
      BucketScanRecords(c, ngram, paths[1..]);
    }
  }

  /** Every document an entry contributes comes from an accepted entry: the totals
      record "1" or records labelled with the entry's first character. */
  lemma DirScanDocs(c: Corpus, d: string)
    ensures forall doc :: doc in DirScan(c, d).docs ==> FromEntry(doc, d)
  {
    if d == OneGramDir {
      BucketScanRecords(c, OneGramLabel, [(d, VocabFile)]);
      assert NatToString(1) == OneGramLabel;
    } else if IsNGramDirName(d) && d in c.listings {
      BucketScanRecords(c, BucketLabel(d), DataFiles(d, SortStrings(c.listings[d])));
    }
  }

  lemma {:induction false} DirsScanDocs(c: Corpus, names: seq<string>)
    ensures forall doc :: doc in DirsScan(c, names).docs ==> exists d :: d in names && FromEntry(doc, d)
  {
    if |names| > 0 {
      DirScanDocs(c, names[0]);
      DirsScanDocs(c, names[1..]);
    }
  }

  /** Only "1gms" and the ".gms" entries of the root listing contribute, each with its
      own length label; no other entry adds anything. */
  lemma CorpusScanDocs(c: Corpus)
    ensures forall doc :: doc in CorpusScan(c).docs ==> exists d :: d in c.root && FromEntry(doc, d)
  {
    var names := SortStrings(c.root);
    DirsScanDocs(c, names);
    forall d | d in names ensures d in c.root {
      assert d in multiset(names);
    }
  }

  /** The ".gms" entries, "1gms" included, in listing order. */
  function AcceptedEntries(names: seq<string>): (r: seq<string>)
    ensures forall d :: d in r <==> d in names && IsNGramDirName(d)
  {
    if |names| == 0 then []
    else (if IsNGramDirName(names[0]) then [names[0]] else []) + AcceptedEntries(names[1..])
  }

  /** Entries that neither are "1gms" nor match ".gms" are ignored. */
  lemma {:induction false} DirsScanIgnoresOtherEntries(c: Corpus, names: seq<string>)
    ensures DirsScan(c, names) == DirsScan(c, AcceptedEntries(names))
  {
    if |names| > 0 {
      DirsScanIgnoresOtherEntries(c, names[1..]);
      var rest := AcceptedEntries(names[1..]);
      if IsNGramDirName(names[0]) {
        assert AcceptedEntries(names) == [names[0]] + rest;
        assert AcceptedEntries(names)[1..] == rest;
      } else {
        assert AcceptedEntries(names) == [] + rest == rest;
        assert DirScan(c, names[0]) == Scan([], Completed);
        assert DirsScan(c, names) == Then([], DirsScan(c, names[1..]));
        assert [] + DirsScan(c, names[1..]).docs == DirsScan(c, names[1..]).docs;
      }
    }
  }

  /** A completed bucket holds every record of each of its files. */
  lemma {:induction false} BucketScanIncludes(c: Corpus, ngram: string, paths: seq<Path>, k: nat)
    requires BucketScan(c, ngram, paths).ending == Completed
    requires k < |paths|
    ensures FileScan(ngram, OpenFile(c, paths[k])).ending == Completed
    ensures forall doc :: doc in FileScan(ngram, OpenFile(c, paths[k])).docs ==> doc in BucketScan(c, ngram, paths).docs
  {
    var f := FileScan(ngram, OpenFile(c, paths[0]));
    assert f.ending == Completed;
    if k > 0 {
      BucketScanIncludes(c, ngram, paths[1..], k - 1);
      assert paths[1..][k - 1] == paths[k];
    }
  }

  /** A bucket ends with an IOException only when one of its files cannot be read. */
  lemma {:induction false} BucketScanIOFailure(c: Corpus, ngram: string, paths: seq<Path>)
    requires BucketScan(c, ngram, paths).ending == IOFailure
    ensures exists i :: 0 <= i < |paths| && OpenFile(c, paths[i]).readError
  {
    if FileScan(ngram, OpenFile(c, paths[0])).ending == Completed {
      BucketScanIOFailure(c, ngram, paths[1..]);
      var i :| 0 <= i < |paths[1..]| && OpenFile(c, paths[1..][i]).readError;
      assert paths[1..][i] == paths[i + 1];
    } else {
      assert OpenFile(c, paths[0]).readError;
    }
  }

  /** A completed sequence of entries holds every document of each entry. */
  lemma {:induction false} DirsScanIncludes(c: Corpus, names: seq<string>, k: nat)
    requires DirsScan(c, names).ending == Completed
    requires k < |names|
    ensures DirScan(c, names[k]).ending == Completed
    ensures forall doc :: doc in DirScan(c, names[k]).docs ==> doc in DirsScan(c, names).docs
  {
    assert DirScan(c, names[0]).ending == Completed;
    if k > 0 {
      DirsScanIncludes(c, names[1..], k - 1);
      assert names[1..][k - 1] == names[k];
    }
  }

  /** Every document of a root entry is in the index of a completed build. */
  lemma CorpusScanIncludes(c: Corpus, d: string)
    requires CorpusScan(c).ending == Completed
    requires d in c.root
    ensures DirScan(c, d).ending == Completed
    ensures forall doc :: doc in DirScan(c, d).docs ==> doc in CorpusScan(c).docs
  {
    var names := SortStrings(c.root);
    SortStringsMembers(c.root);
    var k :| 0 <= k < |names| && names[k] == d;
    DirsScanIncludes(c, names, k);
  }

  /** Every line of a file of a completed bucket is indexed as its parse. */
  lemma FileLineIndexed(c: Corpus, ngram: string, paths: seq<Path>, k: nat, line: string)
    requires BucketScan(c, ngram, paths).ending == Completed
    requires k < |paths| && line in OpenFile(c, paths[k]).lines
    ensures ParseLine(line, ngram).Some?
    ensures ParseLine(line, ngram).value in BucketScan(c, ngram, paths).docs
  {
    BucketScanIncludes(c, ngram, paths, k);
    var lines := OpenFile(c, paths[k]).lines;
    WellFormedLinesAllIndexed(ngram, lines);
    var j :| 0 <= j < |lines| && lines[j] == line;
    assert LinesScan(ngram, lines).docs[j] in FileScan(ngram, OpenFile(c, paths[k])).docs;
  }

  /** The round trip from the corpus to the index for an n-gram directory: when the
      build completes and every data file of the directory can be read, each line of
      each of those files is in the index, parsed with the directory's label. (An
      unreadable file skips the later files of its directory: IOFailureStopsBucket.) */
  lemma NGramLineIndexed(c: Corpus, d: string, f: string, line: string)
    requires CorpusScan(c).ending == Completed
    requires d in c.root && IsNGramDirName(d) && d != OneGramDir && d in c.listings
    requires forall g :: g in c.listings[d] && !EndsWith(g, IdxSuffix) ==> !OpenFile(c, (d, g)).readError
    requires f in c.listings[d] && !EndsWith(f, IdxSuffix)
    requires line in OpenFile(c, (d, f)).lines
    ensures ParseLine(line, BucketLabel(d)).Some?
    ensures ParseLine(line, BucketLabel(d)).value in CorpusScan(c).docs
  {
    CorpusScanIncludes(c, d);
    var sorted := SortStrings(c.listings[d]);
    var paths := DataFiles(d, sorted);
    var b := BucketScan(c, BucketLabel(d), paths);
    SortStringsMembers(c.listings[d]);
    DataFilesMembers(d, sorted);
    if b.ending == IOFailure {
      BucketScanIOFailure(c, BucketLabel(d), paths);
      assert false;
    }
    var k :| 0 <= k < |paths| && paths[k] == (d, f);
    FileLineIndexed(c, BucketLabel(d), paths, k, line);
  }

  /** The same for the vocabulary of "1gms": when the build completes and vocab can be
      read, each of its lines is in the index, labelled "1". */
  lemma VocabLineIndexed(c: Corpus, line: string)
    requires CorpusScan(c).ending == Completed
    requires OneGramDir in c.root
    requires !OpenFile(c, (OneGramDir, VocabFile)).readError
    requires line in OpenFile(c, (OneGramDir, VocabFile)).lines
    ensures ParseLine(line, OneGramLabel).Some?
    ensures ParseLine(line, OneGramLabel).value in CorpusScan(c).docs
  {
    CorpusScanIncludes(c, OneGramDir);
    OneGramEntry(c);
    var paths := [(OneGramDir, VocabFile)];
    assert paths[1..] == [];
    FileLineIndexed(c, OneGramLabel, paths, 0, line);
  }

  /** The "1gms" entry: the totals record first, then the records of vocab labelled "1".
      When total cannot be read the vocabulary is still indexed; when it is empty the
      scan crashes. */
  lemma OneGramEntry(c: Corpus)
    ensures var t := OpenFile(c, (OneGramDir, TotalFile));
            var v := FileScan(OneGramLabel, OpenFile(c, (OneGramDir, VocabFile)));
            && (|t.lines| > 0 ==> DirScan(c, OneGramDir).docs == [TotalsDoc(OneGramLabel, t.lines[0])] + v.docs)
            && (|t.lines| == 0 && t.readError ==> DirScan(c, OneGramDir).docs == v.docs)
            && (|t.lines| == 0 && !t.readError ==> DirScan(c, OneGramDir) == Scan([], Crashed))
  {
    assert NatToString(1) == OneGramLabel;
    var v := FileScan(OneGramLabel, OpenFile(c, (OneGramDir, VocabFile)));
    assert [(OneGramDir, VocabFile)][1..] == [];
    assert BucketScan(c, OneGramLabel, [(OneGramDir, VocabFile)]).docs == v.docs + [];
  }

  /** Within a bucket the files are read in ascending name order. */
  lemma {:induction false} DataFilesSorted(d: string, names: seq<string>)
    requires Sorted(names)
    ensures forall i, j :: 0 <= i < j < |DataFiles(d, names)| ==> LexLe(DataFiles(d, names)[i].1, DataFiles(d, names)[j].1)
  {
    if |names| > 0 {
      DataFilesSorted(d, names[1..]);
      DataFilesMembers(d, names[1..]);
      var rest := DataFiles(d, names[1..]);
      forall j | 0 <= j < |rest| ensures LexLe(names[0], rest[j].1) {
        assert (d, rest[j].1) in rest;
        var k :| 0 <= k < |names[1..]| && names[1..][k] == rest[j].1;
        assert names[k + 1] == rest[j].1;
      }
    }
  }

  /** The scan depends on the listings only as sets: File.list may return the names in
      any order. */
  lemma CorpusScanIgnoresListingOrder(c: Corpus, c2: Corpus)
    requires multiset(c.root) == multiset(c2.root)
    requires c.listings.Keys == c2.listings.Keys
    requires forall d :: d in c.listings ==> multiset(c.listings[d]) == multiset(c2.listings[d])
    requires c.files == c2.files
    ensures CorpusScan(c) == CorpusScan(c2)
  {
    SortStringsCanonical(c.root, c2.root);
    forall d ensures DirScan(c, d) == DirScan(c2, d) {
      DirScanSameListing(c, c2, d);
    }
    DirsScanSameEntries(c, c2, SortStrings(c.root));
  }

  lemma DirScanSameListing(c: Corpus, c2: Corpus, d: string)
    requires c.listings.Keys == c2.listings.Keys
    requires d in c.listings ==> multiset(c.listings[d]) == multiset(c2.listings[d])
    requires c.files == c2.files
    ensures DirScan(c, d) == DirScan(c2, d)
  {
    if d == OneGramDir {
      BucketScanSameFiles(c, c2, OneGramLabel, [(d, VocabFile)]);
    } else if IsNGramDirName(d) && d in c.listings {
      SortStringsCanonical(c.listings[d], c2.listings[d]);
      BucketScanSameFiles(c, c2, BucketLabel(d), DataFiles(d, SortStrings(c.listings[d])));
    }
  }

  lemma {:induction false} BucketScanSameFiles(c: Corpus, c2: Corpus, ngram: string, paths: seq<Path>)
    requires c.files == c2.files
    ensures BucketScan(c, ngram, paths) == BucketScan(c2, ngram, paths)
  {
    if |paths| > 0 {
      BucketScanSameFiles(c, c2, ngram, paths[1..]);
    }
  }

  lemma {:induction false} DirsScanSameEntries(c: Corpus, c2: Corpus, names: seq<string>)
    requires forall d :: DirScan(c, d) == DirScan(c2, d)
    ensures DirsScan(c, names) == DirsScan(c2, names)
  {
    if |names| > 0 {
      DirsScanSameEntries(c, c2, names[1..]);
    }
  }
}

=== FILE: java_strings.dfy ===
/** The java.lang.String operations the indexer and the query builder rely on:
    String.split on the class `\s`, String.trim, String.indexOf, String.endsWith,
    String.toLowerCase (ASCII letters only) and the whitespace split that Lucene's
    WhitespaceAnalyzer applies to an indexed field. */
module JavaStrings {
  import opened Wrappers

  /** The class `\s` of java.util.regex: space, tab, line feed, vertical tab,
      form feed and carriage return. */
  predicate IsRegexSpace(c: char) {
    c == ' ' || c == '\t' || c == '\n' || c == '\U{B}' || c == '\U{C}' || c == '\r'
  }

  /** Character.isWhitespace, the separator of Lucene's WhitespaceTokenizer. */
  predicate IsJavaWhitespace(c: char) {
    IsRegexSpace(c) || ('\U{1C}' <= c <= '\U{1F}') || c == '\U{1680}'
    || ('\U{2000}' <= c <= '\U{2006}') || ('\U{2008}' <= c <= '\U{200A}')
    || c == '\U{2028}' || c == '\U{2029}' || c == '\U{205F}' || c == '\U{3000}'
  }

  /** The code units String.trim removes from either end: everything up to the space. */
  predicate IsTrimmable(c: char) {
    c <= ' '
  }

  /** A word: non-empty, with no whitespace and nothing String.trim would remove. */
  predicate IsWord(t: string) {
    |t| > 0 && forall i :: 0 <= i < |t| ==> !IsTrimmable(t[i]) && !IsJavaWhitespace(t[i])
  }

  predicate AllWords(ts: seq<string>) {
    forall i :: 0 <= i < |ts| ==> IsWord(ts[i])
  }

  // ---------------------------------------------------------------------------
  // Splitting

  /** The two character classes strings are split at: `\s` for query strings,
      Character.isWhitespace for analyzed fields. */
  type Separator = char -> bool

  const RegexSpaceSep: Separator := c => IsRegexSpace(c)
  const JavaWhitespaceSep: Separator := c => IsJavaWhitespace(c)

  predicate IsSeparator(sep: Separator, c: char) {
    sep(c)
  }

  /** The pieces between separator characters, empty pieces included. String.split
      with a one-character class cuts at every such character; the empty pieces it
      keeps or drops are discarded by every caller, so keeping them all is equivalent. */
  function SplitOn(s: string, sep: Separator): (pieces: seq<string>)
    ensures |pieces| > 0
    decreases |s|
  {
    if |s| == 0 then [[]]
    else
      var rest := SplitOn(s[1..], sep);
      if IsSeparator(sep, s[0]) then [[]] + rest
      else [[s[0]] + rest[0]] + rest[1..]
  }

  /** No piece contains a separator character. */
  lemma {:induction false} SplitOnPiecesAreSeparatorFree(s: string, sep: Separator)
    ensures forall i, j :: 0 <= i < |SplitOn(s, sep)| && 0 <= j < |SplitOn(s, sep)[i]|
              ==> !IsSeparator(sep, SplitOn(s, sep)[i][j])
    decreases |s|
  {
    if |s| > 0 {
      SplitOnPiecesAreSeparatorFree(s[1..], sep);
      var rest := SplitOn(s[1..], sep);
      var pieces := SplitOn(s, sep);
      forall i, j | 0 <= i < |pieces| && 0 <= j < |pieces[i]| ensures !IsSeparator(sep, pieces[i][j]) {
        if IsSeparator(sep, s[0]) {
          assert pieces[i] == rest[i - 1];
        } else if i == 0 {
          if j > 0 {
            assert pieces[0][j] == rest[0][j - 1];
          }
        } else {
          assert pieces[i] == rest[i];
        }
      }
    }
  }

  /** A separator in front adds an empty first piece. */
  lemma SplitConsSeparator(x: char, rest: string, sep: Separator)
    requires IsSeparator(sep, x)
    ensures SplitOn([x] + rest, sep) == [[]] + SplitOn(rest, sep)
  {
    assert ([x] + rest)[1..] == rest;
  }

  /** Any other character in front joins the first piece. */
  lemma SplitConsOther(x: char, rest: string, sep: Separator)
    requires !IsSeparator(sep, x)
    ensures SplitOn([x] + rest, sep) == [[x] + SplitOn(rest, sep)[0]] + SplitOn(rest, sep)[1..]
  {
    assert ([x] + rest)[0] == x && ([x] + rest)[1..] == rest;
  }

  /** One step of SplitAppend: a separator in front of the left side. */
  lemma SplitAppendSeparatorStep(x: char, t: string, c: char, b: string, sep: Separator)
    requires IsSeparator(sep, x)
    requires SplitOn(t + [c] + b, sep) == SplitOn(t, sep) + SplitOn(b, sep)
    ensures SplitOn([x] + t + [c] + b, sep) == SplitOn([x] + t, sep) + SplitOn(b, sep)
  {
    var p, q := SplitOn(t, sep), SplitOn(b, sep);
    assert [x] + t + [c] + b == [x] + (t + [c] + b);
    SplitConsSeparator(x, t + [c] + b, sep);
    SplitConsSeparator(x, t, sep);
    AppendAssociates([[]], p, q);
  }

  /** One step of SplitAppend: any other character in front of the left side. */
  lemma SplitAppendOtherStep(x: char, t: string, c: char, b: string, sep: Separator)
    requires !IsSeparator(sep, x)
    requires SplitOn(t + [c] + b, sep) == SplitOn(t, sep) + SplitOn(b, sep)
    ensures SplitOn([x] + t + [c] + b, sep) == SplitOn([x] + t, sep) + SplitOn(b, sep)
  {
    var p, q := SplitOn(t, sep), SplitOn(b, sep);
    assert [x] + t + [c] + b == [x] + (t + [c] + b);
    SplitConsOther(x, t + [c] + b, sep);
    SplitConsOther(x, t, sep);
    ExtendFirstAppend(x, p, q);
  }

  /** Extending the first piece commutes with appending further pieces. */
  lemma ExtendFirstAppend(x: char, p: seq<string>, q: seq<string>)
    requires |p| > 0
    ensures [[x] + (p + q)[0]] + (p + q)[1..] == ([[x] + p[0]] + p[1..]) + q
  {
    assert (p + q)[0] == p[0] && (p + q)[1..] == p[1..] + q;
    AppendAssociates([[x] + p[0]], p[1..], q);
  }

  /** Splitting at a separator character splits the two sides independently. */
  lemma {:induction false} SplitAppend(a: string, c: char, b: string, sep: Separator)
    requires IsSeparator(sep, c)
    ensures SplitOn(a + [c] + b, sep) == SplitOn(a, sep) + SplitOn(b, sep)
    decreases |a|
  {
    if |a| == 0 {
      assert a + [c] + b == [c] + b;
      SplitConsSeparator(c, b, sep);
    } else {
      var x, t := a[0], a[1..];
      assert a == [x] + t;
      SplitAppend(t, c, b, sep);
      if IsSeparator(sep, x) {
        SplitAppendSeparatorStep(x, t, c, b, sep);
      } else {
        SplitAppendOtherStep(x, t, c, b, sep);
      }
    }
  }

  /** A string without separators is one piece. */
  lemma {:induction false} SplitOfSeparatorFree(t: string, sep: Separator)
    requires forall i :: 0 <= i < |t| ==> !IsSeparator(sep, t[i])
    ensures SplitOn(t, sep) == [t]
    decreases |t|
  {
    if |t| > 0 {
      SplitOfSeparatorFree(t[1..], sep);
      assert [t[0]] + t[1..] == t;
    }
  }

  // ---------------------------------------------------------------------------
  // Trimming

  function LeadingTrimmable(s: string): (n: nat)
    ensures n <= |s|
    ensures forall i :: 0 <= i < n ==> IsTrimmable(s[i])
    ensures n < |s| ==> !IsTrimmable(s[n])
  {
    if |s| == 0 || !IsTrimmable(s[0]) then 0 else 1 + LeadingTrimmable(s[1..])
  }

  function TrailingTrimmable(s: string): (n: nat)
    ensures n <= |s|
    ensures forall i :: |s| - n <= i < |s| ==> IsTrimmable(s[i])
    ensures n < |s| ==> !IsTrimmable(s[|s| - 1 - n])
  {
    if |s| == 0 || !IsTrimmable(s[|s| - 1]) then 0 else 1 + TrailingTrimmable(s[..|s| - 1])
  }

  /** r is s from position a on, with only trimmable code units removed before a
      and after a + |r|. */
  predicate StrippedAt(s: string, a: int, r: string) {
    && 0 <= a && a + |r| <= |s| && r == s[a..a + |r|]
    && (forall i :: 0 <= i < a ==> IsTrimmable(s[i]))
    && (forall i :: a + |r| <= i < |s| ==> IsTrimmable(s[i]))
  }

  /** String.trim: drops the leading and trailing code units up to the space. */
  function Trim(s: string): (r: string)
    ensures |r| == 0 || (!IsTrimmable(r[0]) && !IsTrimmable(r[|r| - 1]))
    ensures |r| == 0 <==> forall i :: 0 <= i < |s| ==> IsTrimmable(s[i])
    ensures forall i :: 0 <= i < |r| ==> r[i] in s
    ensures |s| > 0 && !IsTrimmable(s[0]) && !IsTrimmable(s[|s| - 1]) ==> r == s
  {
    var a := LeadingTrimmable(s);
    var t := s[a..];
    var r := t[..|t| - TrailingTrimmable(t)];
    assert forall i :: 0 <= i < |r| ==> r[i] == s[a + i];
    r
  }

  /** trim removes trimmable code units at the two ends and nothing else: the result
      is the infix of s that starts after the leading ones and ends before the
      trailing ones. */
  lemma TrimStrips(s: string)
    ensures StrippedAt(s, LeadingTrimmable(s), Trim(s))
  {
    var a := LeadingTrimmable(s);
    var t := s[a..];
    var n := TrailingTrimmable(t);
    var r := t[..|t| - n];
    assert Trim(s) == r;
    assert r == s[a..a + |r|];
    forall i | a + |r| <= i < |s| ensures IsTrimmable(s[i]) {
      assert s[i] == t[i - a];
    }
    assert forall i :: 0 <= i < a ==> IsTrimmable(s[i]);
    assert StrippedAt(s, a, r);
  }

  // ---------------------------------------------------------------------------
  // Query tokens and analyzer terms

  /** A piece, trimmed, if that leaves something. */
  function KeptPiece(piece: string): seq<string> {
    var t := Trim(piece);
    if |t| > 0 then [t] else []
  }

  /** The pieces that are non-empty once trimmed, trimmed, in their original order. */
  function TrimmedNonEmpty(pieces: seq<string>): (toks: seq<string>)
    ensures |toks| <= |pieces|
  {
    if |pieces| == 0 then [] else KeptPiece(pieces[0]) + TrimmedNonEmpty(pieces[1..])
  }

  /** Every kept piece is non-empty and has no trimmable code unit at either end. */
  lemma {:induction false} TrimmedNonEmptyAreTrimmed(pieces: seq<string>)
    ensures forall i :: 0 <= i < |TrimmedNonEmpty(pieces)| ==>
              var t := TrimmedNonEmpty(pieces)[i];
              |t| > 0 && !IsTrimmable(t[0]) && !IsTrimmable(t[|t| - 1])
  {
    if |pieces| > 0 {
      TrimmedNonEmptyAreTrimmed(pieces[1..]);
      var kept, rest := KeptPiece(pieces[0]), TrimmedNonEmpty(pieces[1..]);
      forall i | 0 <= i < |kept + rest|
        ensures var t := (kept + rest)[i]; |t| > 0 && !IsTrimmable(t[0]) && !IsTrimmable(t[|t| - 1])
      {
        if i >= |kept| {
          assert (kept + rest)[i] == rest[i - |kept|];
        } else {
          assert (kept + rest)[i] == Trim(pieces[0]);
        }
      }
    }
  }

  lemma {:induction false} TrimmedNonEmptyKeepsCharsOut(pieces: seq<string>, bad: Separator)
    requires forall i, j :: 0 <= i < |pieces| && 0 <= j < |pieces[i]| ==> !IsSeparator(bad, pieces[i][j])
    ensures forall i, j :: 0 <= i < |TrimmedNonEmpty(pieces)| && 0 <= j < |TrimmedNonEmpty(pieces)[i]|
              ==> !IsSeparator(bad, TrimmedNonEmpty(pieces)[i][j])
  {
    if |pieces| > 0 {
      TrimmedNonEmptyKeepsCharsOut(pieces[1..], bad);
      var t := Trim(pieces[0]);
      forall j | 0 <= j < |t| ensures !IsSeparator(bad, t[j]) {
        var k :| 0 <= k < |pieces[0]| && pieces[0][k] == t[j];
      }
    }
  }

  /** The tokens of a query string: split at every `\s` character, trim each piece,
      keep the non-empty ones in input order. */
  function Tokens(term: string): (toks: seq<string>)
    ensures forall i :: 0 <= i < |toks| ==> |toks[i]| > 0
    ensures forall i :: 0 <= i < |toks| ==> !IsTrimmable(toks[i][0]) && !IsTrimmable(toks[i][|toks[i]| - 1])
    ensures forall i, j :: 0 <= i < |toks| && 0 <= j < |toks[i]| ==> !IsRegexSpace(toks[i][j])
  {
    var pieces := SplitOn(term, RegexSpaceSep);
    SplitOnPiecesAreSeparatorFree(term, RegexSpaceSep);
    TrimmedNonEmptyAreTrimmed(pieces);
    TrimmedNonEmptyKeepsCharsOut(pieces, RegexSpaceSep);
    TrimmedNonEmpty(pieces)
  }

  lemma {:induction false} TrimmedNonEmptyAppend(a: seq<string>, b: seq<string>)
    ensures TrimmedNonEmpty(a + b) == TrimmedNonEmpty(a) + TrimmedNonEmpty(b)
  {
    if |a| > 0 {
      var t := Trim(a[0]);
      var head := if |t| > 0 then [t] else [];
      assert (a + b)[0] == a[0] && (a + b)[1..] == a[1..] + b;
      TrimmedNonEmptyAppend(a[1..], b);
      assert TrimmedNonEmpty(a + b) == head + (TrimmedNonEmpty(a[1..]) + TrimmedNonEmpty(b));
      AppendAssociates(head, TrimmedNonEmpty(a[1..]), TrimmedNonEmpty(b));
    } else {
      assert a + b == b;
    }
  }

  lemma {:induction false} TrimmedNonEmptyOfWords(ws: seq<string>)
    requires AllWords(ws)
    ensures TrimmedNonEmpty(ws) == ws
  {
    if |ws| > 0 {
      TrimmedNonEmptyOfWords(ws[1..]);
    }
  }

  /** Tokenising preserves order: the tokens on either side of a space are kept, in sequence. */
  lemma TokensOfConcat(a: string, b: string)
    ensures Tokens(a + " " + b) == Tokens(a) + Tokens(b)
  {
    SplitAppend(a, ' ', b, RegexSpaceSep);
    TrimmedNonEmptyAppend(SplitOn(a, RegexSpaceSep), SplitOn(b, RegexSpaceSep));
  }

  /** The non-empty pieces, in order. */
  function NonEmpty(pieces: seq<string>): (r: seq<string>)
    ensures |r| <= |pieces|
    ensures forall x :: x in r <==> x in pieces && |x| > 0
  {
    if |pieces| == 0 then []
    else (if |pieces[0]| > 0 then [pieces[0]] else []) + NonEmpty(pieces[1..])
  }

  /** The terms WhitespaceTokenizer emits for an analyzed field: the maximal runs of
      characters that are not Character.isWhitespace. */
  function AnalyzerTerms(s: string): (terms: seq<string>)
    ensures forall i :: 0 <= i < |terms| ==> |terms[i]| > 0
    ensures forall i, j :: 0 <= i < |terms| && 0 <= j < |terms[i]| ==> !IsJavaWhitespace(terms[i][j])
  {
    var pieces := SplitOn(s, JavaWhitespaceSep);
    SplitOnPiecesAreSeparatorFree(s, JavaWhitespaceSep);
    assert forall x :: x in NonEmpty(pieces) ==> x in pieces;
    NonEmpty(pieces)
  }

  // ---------------------------------------------------------------------------
  // Words joined by single spaces: the forms of the corpus

  function JoinWords(ws: seq<string>): string {
    if |ws| == 0 then ""
    else if |ws| == 1 then ws[0]
    else ws[0] + " " + JoinWords(ws[1..])
  }

  /** A form made of words has no tab: the only code unit below '!' in it is the
      joining space. */
  lemma {:induction false} JoinWordsHasNoTab(ws: seq<string>)
    requires AllWords(ws)
    ensures '\t' !in JoinWords(ws)
  {
    if |ws| > 1 {
      JoinWordsHasNoTab(ws[1..]);
      assert '\t' !in ws[0];
      assert JoinWords(ws) == ws[0] + " " + JoinWords(ws[1..]);
    } else if |ws| == 1 {
      assert '\t' !in ws[0];
    }
  }

  lemma {:induction false} SplitOfJoin(ws: seq<string>, sep: Separator)
    requires |ws| > 0 && IsSeparator(sep, ' ')
    requires forall i, j :: 0 <= i < |ws| && 0 <= j < |ws[i]| ==> !IsSeparator(sep, ws[i][j])
    ensures SplitOn(JoinWords(ws), sep) == ws
  {
    SplitOfSeparatorFree(ws[0], sep);
    if |ws| > 1 {
      SplitOfJoin(ws[1..], sep);
      SplitAppend(ws[0], ' ', JoinWords(ws[1..]), sep);
      assert [ws[0]] + ws[1..] == ws;
    }
  }

  /** The tokeniser recovers the words of a space-joined form. */
  lemma TokensOfJoin(ws: seq<string>)
    requires AllWords(ws)
    ensures Tokens(JoinWords(ws)) == ws
  {
    if |ws| > 0 {
      SplitOfJoin(ws, RegexSpaceSep);
      TrimmedNonEmptyOfWords(ws);
    }
  }

  lemma {:induction false} NonEmptyOfWords(ws: seq<string>)
    requires AllWords(ws)
    ensures NonEmpty(ws) == ws
  {
    if |ws| > 0 {
      NonEmptyOfWords(ws[1..]);
    }
  }

  /** The analyzer splits a space-joined form back into its words. */
  lemma AnalyzerTermsOfJoin(ws: seq<string>)
    requires AllWords(ws)
    ensures AnalyzerTerms(JoinWords(ws)) == ws
  {
    if |ws| > 0 {
      SplitOfJoin(ws, JavaWhitespaceSep);
      NonEmptyOfWords(ws);
    }
  }

  // ---------------------------------------------------------------------------
  // Lower case (ASCII letters only)

  function LowerChar(c: char): char {
    if 'A' <= c <= 'Z' then (c as int + 32) as char else c
  }

  /** String.toLowerCase restricted to ASCII: upper-case letters become lower case,
      every other code unit is kept. */
  function ToLower(s: string): (r: string)
    ensures |r| == |s|
    ensures forall i :: 0 <= i < |s| ==> r[i] == LowerChar(s[i])
  {
    seq(|s|, i requires 0 <= i < |s| => LowerChar(s[i]))
  }

  function LowerAll(ws: seq<string>): (r: seq<string>)
    ensures |r| == |ws|
    ensures forall i :: 0 <= i < |ws| ==> r[i] == ToLower(ws[i])
  {
    seq(|ws|, i requires 0 <= i < |ws| => ToLower(ws[i]))
  }

  lemma LowerWord(t: string)
    requires IsWord(t)
    ensures IsWord(ToLower(t))
  {
  }

  /** Lower-casing a form lower-cases each of its words. */
  lemma {:induction false} ToLowerOfJoin(ws: seq<string>)
    ensures ToLower(JoinWords(ws)) == JoinWords(LowerAll(ws))
  {
    if |ws| > 1 {
      ToLowerOfJoin(ws[1..]);
      assert LowerAll(ws)[1..] == LowerAll(ws[1..]);
      var j := JoinWords(ws[1..]);
      assert ToLower(ws[0] + " " + j) == ToLower(ws[0]) + " " + ToLower(j);
    }
  }

  // ---------------------------------------------------------------------------
  // indexOf and endsWith

  /** String.indexOf(c): the first position of c, or -1 when it does not occur. */
  function IndexOf(s: string, c: char): (r: int)
    ensures -1 <= r < |s|
    ensures r == -1 <==> c !in s
    ensures r >= 0 ==> s[r] == c && c !in s[..r]
  {
    if |s| == 0 then -1
    else if s[0] == c then 0
    else
      var k := IndexOf(s[1..], c);
      if k == -1 then -1
      else
        assert s[..k + 1] == [s[0]] + s[1..][..k];
        k + 1
  }

  /** String.endsWith. */
  predicate EndsWith(s: string, suffix: string) {
    |suffix| <= |s| && s[|s| - |suffix|..] == suffix
  }
}

=== FILE: querying.dfy ===
/** NGramCorpus: phrase-frequency queries against an index built by IndexCreator.

    A query string is split into tokens; the tokens become a zero-slop phrase on the
    text field (or, lower-cased, on the lowercase field) that is required together
    with the term length = number of tokens. The search hands each hit to a fresh
    NGramCollector. The index is the document sequence IndexCreator produced; which
    documents a query reports is the Matches assumption of Documents. */
module Querying {
  import opened Wrappers
  import opened JavaStrings
  import opened Decimal
  import opened Documents
  import opened Collecting
  import opened Indexing

  /** The query of the constructor: the totals record of the 1-grams. */
  const TotalsQuery: Query := Term(TotalTokenNumsField, "1")

  /** Why a query yields no number: a hit's count is not a long (NumberFormatException
      escapes the search), or the query string has no token. */
  datatype Failure = NumberFormat | EmptyPhrase

  function FieldFor(lowercase: bool): Field {
    if lowercase then LowercaseField else TextField
  }

  /** The phrase terms: the tokens, lower-cased in lowercase mode. */
  function PhraseTerms(tokens: seq<string>, lowercase: bool): seq<string> {
    if lowercase then LowerAll(tokens) else tokens
  }

  /** The BooleanQuery of getOccurrences(List, boolean). */
  function OccurrenceQuery(tokens: seq<string>, lowercase: bool): Query {
    And([Phrase(FieldFor(lowercase), PhraseTerms(tokens, lowercase)), Term(LengthField, NatToString(|tokens|))])
  }

  /** getOccurrences(Query): the total a fresh collector with form collection off
      reaches over the hits. */
  function Occurrences(index: seq<Doc>, q: Query): Result<int, Failure> {
    match CollectAll(Tally(0, map[]), Hits(index, q), false)
    case None => Err(NumberFormat)
    case Some(t) => Ok(t.total)
  }

  /** getForms(Query): the map a fresh collector with form collection on builds. */
  function Forms(index: seq<Doc>, q: Query): Result<map<Option<string>, int>, Failure> {
    match CollectAll(Tally(0, map[]), Hits(index, q), true)
    case None => Err(NumberFormat)
    case Some(t) => Ok(t.forms)
  }

  /** getOccurrences(List, boolean). */
  function TokensOccurrences(index: seq<Doc>, tokens: seq<string>, lowercase: bool): Result<int, Failure> {
    if |tokens| == 0 then Err(EmptyPhrase) else Occurrences(index, OccurrenceQuery(tokens, lowercase))
  }

  /** getOccurrences(String, boolean). */
  function TextOccurrences(index: seq<Doc>, term: string, lowercase: bool): Result<int, Failure> {
    TokensOccurrences(index, Tokens(term), lowercase)
  }

  /** The tokeniser loop of getOccurrences(String, boolean): split at `\s`, trim each
      piece, keep the non-empty ones and count them. */
  method Tokenize(term: string) returns (tokList: seq<string>, length: nat)
    ensures tokList == Tokens(term)
    ensures length == |tokList|
  {
    var tokens := SplitOn(term, RegexSpaceSep);
    tokList := [];
    length := 0;
    var i := 0;
    while i < |tokens|
      invariant 0 <= i <= |tokens|
      invariant TrimmedNonEmpty(tokens) == tokList + TrimmedNonEmpty(tokens[i..])
      invariant length == |tokList|
    {
      TrimmedNonEmptyStep(tokens, i, tokList);
      var s := Trim(tokens[i]);
      if |s| > 0 {
        length := length + 1;
        tokList := tokList + [s];
      } else {
        assert tokList + KeptPiece(tokens[i]) == tokList;
      }
      i := i + 1;
    }
  }

  /** One step of the tokeniser loop: piece i, once trimmed, is kept when non-empty. */
  lemma TrimmedNonEmptyStep(pieces: seq<string>, i: nat, kept: seq<string>)
    requires i < |pieces|
    requires TrimmedNonEmpty(pieces) == kept + TrimmedNonEmpty(pieces[i..])
    ensures TrimmedNonEmpty(pieces) == (kept + KeptPiece(pieces[i])) + TrimmedNonEmpty(pieces[i + 1..])
  {
    assert pieces[i..][0] == pieces[i] && pieces[i..][1..] == pieces[i + 1..];
    AppendAssociates(kept, KeptPiece(pieces[i]), TrimmedNonEmpty(pieces[i + 1..]));
  }


  /** The query-building loop of getOccurrences(List, boolean). */
  method BuildOccurrenceQuery(tokens: seq<string>, lowercase: bool) returns (q: Query)
    ensures q == OccurrenceQuery(tokens, lowercase)
  {
    var ngrams := NatToString(|tokens|);
    var fieldName := TextField;
    if lowercase {
      fieldName := LowercaseField;
    }
    var terms: seq<string> := [];
    var i := 0;
    while i < |tokens|
      invariant 0 <= i <= |tokens|
      invariant terms == PhraseTerms(tokens[..i], lowercase)
    {
      var s := tokens[i];
      if lowercase {
        s := ToLower(s);
      }
      assert tokens[..i + 1] == tokens[..i] + [tokens[i]];
      terms := terms + [s];
      i := i + 1;
    }
    assert tokens[..i] == tokens;
    q := And([Phrase(fieldName, terms), Term(LengthField, ngrams)]);
  }

  class NGramCorpus {
    /** The documents the IndexSearcher reads. */
    const index: seq<Doc>
    var totalNumberTokens: int

    constructor (index: seq<Doc>)
      ensures this.index == index && totalNumberTokens == -1
    {
      this.index := index;
      totalNumberTokens := -1;
    }

    /** getTotalNumberTokens: the total fixed when the corpus was opened, -1 before. */
    function GetTotalNumberTokens(): (n: int)
      reads this
      ensures n == totalNumberTokens
    {
      totalNumberTokens
    }

    /** searcher.search(query, collector): collect on every hit, in index order. */
    method Search(q: Query, collector: NGramCollector) returns (ok: bool)
      modifies collector
      ensures collector.collectNgrams == old(collector.collectNgrams)
      ensures var r := CollectAll(old(collector.State()), Hits(index, q), collector.collectNgrams);
              (ok <==> r.Some?) && (ok ==> collector.State() == r.value)
    {
      var hits := Hits(index, q);
      var i := 0;
      while i < |hits|
        invariant 0 <= i <= |hits|
        invariant collector.collectNgrams == old(collector.collectNgrams)
        invariant CollectAll(old(collector.State()), hits, collector.collectNgrams)
                  == CollectAll(collector.State(), hits[i..], collector.collectNgrams)
      {
        CollectAllAt(collector.State(), hits, i, collector.collectNgrams);
        var collected := collector.Collect(hits[i]);
        if !collected {
          return false;
        }
        i := i + 1;
      }
      return true;
    }

    method GetOccurrences(q: Query) returns (r: Result<int, Failure>)
      ensures r == Occurrences(index, q)
    {
      var collector := new NGramCollector();
      collector.SetCollectNgrams(false);
      var ok := Search(q, collector);
      if !ok {
        return Err(NumberFormat);
      }
      return Ok(collector.GetTotalOccurrences());
    }

    method GetForms(q: Query) returns (r: Result<map<Option<string>, int>, Failure>)
      ensures r == Forms(index, q)
    {
      var collector := new NGramCollector();
      collector.SetCollectNgrams(true);
      var ok := Search(q, collector);
      if !ok {
        return Err(NumberFormat);
      }
      return Ok(collector.GetMap());
    }

    method GetOccurrencesOfTokens(tokens: seq<string>, lowercase: bool) returns (r: Result<int, Failure>)
      ensures r == TokensOccurrences(index, tokens, lowercase)
    {
      if |tokens| == 0 {
        // a phrase without terms: what Lucene does with it is not modelled
        return Err(EmptyPhrase);
      }
      var q := BuildOccurrenceQuery(tokens, lowercase);
      r := GetOccurrences(q);
    }

    method GetOccurrencesOfText(term: string, lowercase: bool) returns (r: Result<int, Failure>)
      ensures r == TextOccurrences(index, term, lowercase)
    {
      var tokList, length := Tokenize(term);
      r := GetOccurrencesOfTokens(tokList, lowercase);
    }

    /** getOccurrences(String): case-sensitive, on the text field. */
    method GetOccurrencesOf(term: string) returns (r: Result<int, Failure>)
      ensures r == TextOccurrences(index, term, false)
    {
      r := GetOccurrencesOfText(term, false);
    }
  }

  /** new NGramCorpus(indexDirectory): open the index and fix the total number of
      tokens, the summed value of the 1-gram totals record. */
  method Open(index: seq<Doc>) returns (r: Result<NGramCorpus, Failure>)
    ensures r.Ok? <==> Occurrences(index, TotalsQuery).Ok?
    ensures r.Ok? ==> fresh(r.value) && r.value.index == index
                      && r.value.GetTotalNumberTokens() == Occurrences(index, TotalsQuery).value
    ensures r.Err? ==> r.error == NumberFormat
  {
    var corpus := new NGramCorpus(index);
    var total := corpus.GetOccurrences(TotalsQuery);
    if total.Err? {
      return Err(total.error);
    }
    corpus.totalNumberTokens := total.value;
    return Ok(corpus);
  }

  // ---------------------------------------------------------------------------
  // What a query finds

  /** A search's total is the sum of the counts of its hits, every hit counted. */
  lemma OccurrencesAreSums(index: seq<Doc>, q: Query)
    ensures var s := SumValues(Hits(index, q));
            Occurrences(index, q) == if s.Some? then Ok(s.value) else Err(NumberFormat)
  {
    CollectAllSums(Tally(0, map[]), Hits(index, q), false);
  }

  /** The writer appends to the index already in the directory, so building the same
      corpus twice into it doubles every answer: a query on the index followed by a
      copy of itself returns twice the count, or fails as it did. */
  lemma RebuiltIndexDoublesOccurrences(index: seq<Doc>, q: Query)
    ensures Occurrences(index + index, q)
            == if Occurrences(index, q).Ok? then Ok(2 * Occurrences(index, q).value) else Err(NumberFormat)
  {
    OccurrencesAreSums(index, q);
    OccurrencesAreSums(index + index, q);
    HitsOfCopySumTwice(index, q);
  }

  lemma HitsOfCopySumTwice(index: seq<Doc>, q: Query)
    ensures var s := SumValues(Hits(index, q));
            SumValues(Hits(index + index, q)) == if s.Some? then Some(2 * s.value) else None
  {
    var h := Hits(index, q);
    HitsAppend(index, index, q);
    SumValuesTwice(h);
  }

  /** getForms maps each stored text of the hits to the count of its last hit and
      holds nothing else; it fails exactly when getOccurrences does. */
  lemma FormsOfHits(index: seq<Doc>, q: Query, key: Option<string>)
    ensures Forms(index, q).Ok? <==> Occurrences(index, q).Ok?
    ensures Forms(index, q).Ok? ==>
              var m := Forms(index, q).value;
              var last := LastFormValue(Hits(index, q), key);
              (key in m <==> last.Some?) && (key in m ==> m[key] == last.value)
  {
    CollectAllSums(Tally(0, map[]), Hits(index, q), false);
    CollectAllSums(Tally(0, map[]), Hits(index, q), true);
    if CollectAll(Tally(0, map[]), Hits(index, q), true).Some? {
      LastWriteWins(Tally(0, map[]), Hits(index, q), key);
    }
  }

  /** The occurrence query matches a record exactly when its length is the token
      count and the chosen field holds the phrase terms consecutively. */
  lemma OccurrenceQueryMatches(tokens: seq<string>, lowercase: bool, d: Doc)
    requires |tokens| > 0
    ensures Matches(OccurrenceQuery(tokens, lowercase), d)
            <==> && d.NGramDoc?
                 && d.length == NatToString(|tokens|)
                 && ContainsRun(AnalyzerTerms(if lowercase then d.lowercase else d.text), PhraseTerms(tokens, lowercase))
  {
    var phrase := Phrase(FieldFor(lowercase), PhraseTerms(tokens, lowercase));
    var length := Term(LengthField, NatToString(|tokens|));
    assert OccurrenceQuery(tokens, lowercase) == And([phrase, length]);
    MatchesBoth(phrase, length, d);
    if d.NGramDoc? {
      assert |PhraseTerms(tokens, lowercase)| > 0;
      assert IndexedTerms(d, FieldFor(lowercase)) == AnalyzerTerms(if lowercase then d.lowercase else d.text);
      assert Matches(length, d) <==> d.length == NatToString(|tokens|);
    } else {
      assert !Matches(length, d);
    }
  }

  /** Both clauses are required: a record of another length never matches, whatever
      its text. */
  lemma LengthDiscrimination(tokens: seq<string>, lowercase: bool, d: Doc, n: nat)
    requires d.NGramDoc? && d.length == NatToString(n) && n != |tokens|
    ensures !Matches(OccurrenceQuery(tokens, lowercase), d)
  {
    NatToStringInjective(n, |tokens|);
    var cs := OccurrenceQuery(tokens, lowercase).clauses;
    assert !Matches(cs[1], d);
  }

  /** The totals record never answers a phrase query. */
  lemma TotalsDocNeverMatches(tokens: seq<string>, lowercase: bool, d: Doc)
    requires d.TotalsDoc?
    ensures !Matches(OccurrenceQuery(tokens, lowercase), d)
  {
    var cs := OccurrenceQuery(tokens, lowercase).clauses;
    assert !Matches(cs[1], d);
  }

  /** The constructor's query finds exactly the totals record of the 1-grams. */
  lemma TotalsQueryMatches(d: Doc)
    ensures Matches(TotalsQuery, d) <==> d.TotalsDoc? && d.totalTokenNums == "1"
  {
  }

  /** Without a 1-gram totals record the total number of tokens is 0, not an error. */
  lemma MissingTotalsGivesZero(index: seq<Doc>)
    requires forall j :: 0 <= j < |index| ==> !(index[j].TotalsDoc? && index[j].totalTokenNums == "1")
    ensures Occurrences(index, TotalsQuery) == Ok(0)
  {
    forall j | 0 <= j < |index| ensures !Matches(TotalsQuery, index[j]) {
      TotalsQueryMatches(index[j]);
    }
    NoHitsIn(index, TotalsQuery, 0, |index|);
    assert index[0..|index|] == index;
  }

  /** A run as long as the sequence is the whole sequence. */
  lemma ContainsRunOfSameLength(terms: seq<string>, run: seq<string>)
    requires |terms| == |run|
    ensures ContainsRun(terms, run) <==> terms == run
  {
    if terms == run {
      assert RunAt(terms, run, 0);
    }
  }

  /** The record IndexCreator makes of the corpus line "w1 ... wn<TAB>count" in the
      n-gram bucket. */
  function RecordOf(ws: seq<string>, count: string): Doc
    requires AllWords(ws)
  {
    JoinWordsHasNoTab(ws);
    ParseFormattedLine(JoinWords(ws), count, NatToString(|ws|));
    ParseLine(JoinWords(ws) + "\t" + count, NatToString(|ws|)).value
  }

  lemma RecordOfFields(ws: seq<string>, count: string)
    requires AllWords(ws)
    ensures RecordOf(ws, count) == NGramDoc(JoinWords(ws), ToLower(JoinWords(ws)), NatToString(|ws|), count)
    ensures AnalyzerTerms(RecordOf(ws, count).text) == ws
    ensures AnalyzerTerms(RecordOf(ws, count).lowercase) == LowerAll(ws)
  {
    JoinWordsHasNoTab(ws);
    ParseFormattedLine(JoinWords(ws), count, NatToString(|ws|));
    AnalyzerTermsOfJoin(ws);
    ToLowerOfJoin(ws);
    forall i | 0 <= i < |ws| ensures IsWord(LowerAll(ws)[i]) {
      LowerWord(ws[i]);
    }
    AnalyzerTermsOfJoin(LowerAll(ws));
  }

  /** In the default mode a record of n words answers an n-token query exactly when
      its words are the tokens, letter case included. */
  lemma CaseSensitiveMatch(tokens: seq<string>, ws: seq<string>, count: string)
    requires |tokens| > 0 && |ws| == |tokens|
    requires AllWords(ws)
    ensures Matches(OccurrenceQuery(tokens, false), RecordOf(ws, count)) <==> ws == tokens
  {
    RecordOfFields(ws, count);
    OccurrenceQueryMatches(tokens, false, RecordOf(ws, count));
    ContainsRunOfSameLength(ws, tokens);
  }

  /** In lowercase mode a record of n words answers an n-token query exactly when its
      words are the tokens up to letter case. */
  lemma CaseInsensitiveMatch(tokens: seq<string>, ws: seq<string>, count: string)
    requires |tokens| > 0 && |ws| == |tokens|
    requires AllWords(ws)
    ensures Matches(OccurrenceQuery(tokens, true), RecordOf(ws, count)) <==> LowerAll(ws) == LowerAll(tokens)
  {
    RecordOfFields(ws, count);
    OccurrenceQueryMatches(tokens, true, RecordOf(ws, count));
    ContainsRunOfSameLength(LowerAll(ws), LowerAll(tokens));
  }

  /** The round trip from corpus to query: when the line "w1 ... wn<TAB>count" was
      ingested and no other record answers the query, asking for "w1 ... wn" returns
      the count, in either mode. */
  lemma IngestedLineIsFound(index: seq<Doc>, ws: seq<string>, n: int, i: nat, lowercase: bool)
    requires AllWords(ws) && |ws| > 0
    requires MinLong <= n <= MaxLong
    requires i < |index| && index[i] == RecordOf(ws, LongToString(n))
    requires forall j :: 0 <= j < |index| && j != i ==> !Matches(OccurrenceQuery(ws, lowercase), index[j])
    ensures TextOccurrences(index, JoinWords(ws), lowercase) == Ok(n)
  {
    TokensOfJoin(ws);
    if lowercase {
      CaseInsensitiveMatch(ws, ws, LongToString(n));
    } else {
      CaseSensitiveMatch(ws, ws, LongToString(n));
    }
    RecordOfFields(ws, LongToString(n));
    LongRoundTrip(n);
    OccurrencesOfSingleHit(index, OccurrenceQuery(ws, lowercase), i, n);
  }

  /** The whole round trip, from a corpus file to a query answer: the line
      "w1 ... wn<TAB>count" of a readable data file of the n-gram directory of bucket n
      is found by querying "w1 ... wn" on the index of a completed build, when no
      other record of the index answers that query. */
  lemma CorpusLineIsFound(c: Corpus, d: string, f: string, ws: seq<string>, n: int, lowercase: bool)
    requires CorpusScan(c).ending == Completed
    requires d in c.root && IsNGramDirName(d) && d != OneGramDir && d in c.listings
    requires forall g :: g in c.listings[d] && !EndsWith(g, IdxSuffix) ==> !OpenFile(c, (d, g)).readError
    requires f in c.listings[d] && !EndsWith(f, IdxSuffix)
    requires AllWords(ws) && |ws| > 0 && BucketLabel(d) == NatToString(|ws|)
    requires MinLong <= n <= MaxLong
    requires JoinWords(ws) + "\t" + LongToString(n) in OpenFile(c, (d, f)).lines
    requires forall j, k :: 0 <= j < k < |CorpusScan(c).docs| ==>
               !(Matches(OccurrenceQuery(ws, lowercase), CorpusScan(c).docs[j]) && Matches(OccurrenceQuery(ws, lowercase), CorpusScan(c).docs[k]))
    ensures TextOccurrences(CorpusScan(c).docs, JoinWords(ws), lowercase) == Ok(n)
  {
    NGramLineIndexed(c, d, f, JoinWords(ws) + "\t" + LongToString(n));
    IndexedRecordIsFound(CorpusScan(c).docs, ws, n, lowercase);
  }

  /** The record of "w1 ... wn<TAB>count", anywhere in an index where no other record
      answers the query "w1 ... wn", is what that query returns. */
  lemma IndexedRecordIsFound(index: seq<Doc>, ws: seq<string>, n: int, lowercase: bool)
    requires AllWords(ws) && |ws| > 0
    requires MinLong <= n <= MaxLong
    requires RecordOf(ws, LongToString(n)) in index
    requires forall j, k :: 0 <= j < k < |index| ==>
               !(Matches(OccurrenceQuery(ws, lowercase), index[j]) && Matches(OccurrenceQuery(ws, lowercase), index[k]))
    ensures TextOccurrences(index, JoinWords(ws), lowercase) == Ok(n)
  {
    var i :| 0 <= i < |index| && index[i] == RecordOf(ws, LongToString(n));
    if lowercase {
      CaseInsensitiveMatch(ws, ws, LongToString(n));
    } else {
      CaseSensitiveMatch(ws, ws, LongToString(n));
    }
    OnlyMatch(index, OccurrenceQuery(ws, lowercase), i);
    IngestedLineIsFound(index, ws, n, i, lowercase);
  }

  /** A query with a single hit returns that hit's count. */
  lemma OccurrencesOfSingleHit(index: seq<Doc>, q: Query, i: nat, n: int)
    requires i < |index| && Matches(q, index[i]) && ParsedValue(index[i]) == Some(n)
    requires forall j :: 0 <= j < |index| && j != i ==> !Matches(q, index[j])
    ensures Occurrences(index, q) == Ok(n)
  {
    HitsOfSingleMatch(index, q, i);
    assert CollectAll(Tally(0, map[]), [index[i]], false) == CollectAll(Tally(n, map[]), [], false);
  }
}

=== FILE: string_order.dfy ===
/** The natural order of java.lang.String (String.compareTo: code unit by code unit,
    a proper prefix first) and the sort that Arrays.sort and Collections.sort apply to
    a directory listing. Any correct sort of a listing gives the same sequence
    (SortedPermutationsAreEqual), so an insertion sort stands for Java's merge sort. */
module StringOrder {

  /** a.compareTo(b) <= 0 */
  predicate LexLe(a: string, b: string) {
    |a| == 0 || (|b| > 0 && (a[0] < b[0] || (a[0] == b[0] && LexLe(a[1..], b[1..]))))
  }

  lemma {:induction false} LexLeReflexive(a: string)
    ensures LexLe(a, a)
  {
    if |a| > 0 {
      LexLeReflexive(a[1..]);
    }
  }

  lemma {:induction false} LexLeTotal(a: string, b: string)
    ensures LexLe(a, b) || LexLe(b, a)
  {
    if |a| > 0 && |b| > 0 && a[0] == b[0] {
      LexLeTotal(a[1..], b[1..]);
    }
  }

  lemma {:induction false} LexLeAntisymmetric(a: string, b: string)
    requires LexLe(a, b) && LexLe(b, a)
    ensures a == b
  {
    if |a| > 0 {
      LexLeAntisymmetric(a[1..], b[1..]);
      assert a == [a[0]] + a[1..] && b == [b[0]] + b[1..];
    }
  }

  lemma {:induction false} LexLeTransitive(a: string, b: string, c: string)
    requires LexLe(a, b) && LexLe(b, c)
    ensures LexLe(a, c)
  {
    if |a| > 0 && a[0] == b[0] && b[0] == c[0] {
      LexLeTransitive(a[1..], b[1..], c[1..]);
    }
  }

  predicate Sorted(s: seq<string>) {
    forall i, j :: 0 <= i < j < |s| ==> LexLe(s[i], s[j])
  }

  function Insert(x: string, s: seq<string>): (r: seq<string>)
    ensures multiset(r) == multiset(s) + multiset{x}
    ensures |r| == |s| + 1
  {
    if |s| == 0 then [x]
    else if LexLe(x, s[0]) then [x] + s
    else
      assert s == [s[0]] + s[1..];
      [s[0]] + Insert(x, s[1..])
  }

  /** The listing in ascending String order. */
  function SortStrings(s: seq<string>): (r: seq<string>)
    ensures multiset(r) == multiset(s)
    ensures |r| == |s|
  {
    if |s| == 0 then []
    else
      assert s == [s[0]] + s[1..];
      Insert(s[0], SortStrings(s[1..]))
  }

  lemma {:induction false} InsertSorted(x: string, s: seq<string>)
    requires Sorted(s)
    ensures Sorted(Insert(x, s))
  {
    if |s| == 0 {
    } else if LexLe(x, s[0]) {
      forall j | 0 < j < |s| ensures LexLe(x, s[j]) {
        LexLeTransitive(x, s[0], s[j]);
      }
    } else {
      LexLeTotal(x, s[0]);
      InsertSorted(x, s[1..]);
      var r := Insert(x, s[1..]);
      forall j | 0 <= j < |r| ensures LexLe(s[0], r[j]) {
        assert r[j] in multiset(r);
        if r[j] != x {
          assert r[j] in multiset(s[1..]);
          var k :| 0 <= k < |s[1..]| && s[1..][k] == r[j];
          assert s[k + 1] == r[j];
        }
      }
      assert Insert(x, s) == [s[0]] + r;
    }
  }

  /** The sort yields a sorted permutation of its input. */
  lemma {:induction false} SortStringsSorted(s: seq<string>)
    ensures Sorted(SortStrings(s))
  {
    if |s| > 0 {
      SortStringsSorted(s[1..]);
      InsertSorted(s[0], SortStrings(s[1..]));
    }
  }

  lemma SortedHeadIsLeast(a: seq<string>, x: string)
    requires Sorted(a) && x in multiset(a)
    ensures LexLe(a[0], x)
  {
    var i :| 0 <= i < |a| && a[i] == x;
    if i == 0 {
      LexLeReflexive(x);
    }
  }

  lemma MultisetOfTail(a: seq<string>)
    requires |a| > 0
    ensures multiset(a[1..]) == multiset(a) - multiset{a[0]}
  {
    assert a == [a[0]] + a[1..];
  }

  /** A sorted permutation is unique, whatever algorithm produced it. */
  lemma {:induction false} SortedPermutationsAreEqual(a: seq<string>, b: seq<string>)
    requires Sorted(a) && Sorted(b) && multiset(a) == multiset(b)
    ensures a == b
    decreases |a|
  {
    assert |a| == |multiset(a)| == |b|;
    if |a| > 0 {
      SortedHeadIsLeast(a, b[0]);
      SortedHeadIsLeast(b, a[0]);
      LexLeAntisymmetric(a[0], b[0]);
      MultisetOfTail(a);
      MultisetOfTail(b);
      SortedPermutationsAreEqual(a[1..], b[1..]);
      assert a == [a[0]] + a[1..] && b == [b[0]] + b[1..];
    }
  }

  /** Sorting depends only on the multiset of names, not on the order File.list
      returned them in. */
  lemma SortStringsCanonical(a: seq<string>, b: seq<string>)
    requires multiset(a) == multiset(b)
    ensures SortStrings(a) == SortStrings(b)
  {
    SortStringsSorted(a);
    SortStringsSorted(b);
    SortedPermutationsAreEqual(SortStrings(a), SortStrings(b));
  }

  /** Sorting keeps exactly the names of the listing. */
  lemma SortStringsMembers(s: seq<string>)
    ensures forall x :: x in SortStrings(s) <==> x in s
  {
    assert forall x :: x in SortStrings(s) <==> x in multiset(SortStrings(s));
    assert forall x :: x in s <==> x in multiset(s);
  }
}

=== FILE: wrappers.dfy ===
/** Option and Result, standing for Java's null and for exceptions that end an operation,
    and the associativity of sequence concatenation, which the append lemmas regroup by. */
module Wrappers {

  datatype Option<+T> = None | Some(value: T)

  datatype Result<+T, +E> = Ok(value: T) | Err(error: E)

  lemma AppendAssociates<T>(a: seq<T>, b: seq<T>, c: seq<T>)
    ensures a + (b + c) == (a + b) + c
  {
  }
}
